=== FILE: README.md ===
# shopify-psrestful, modelled in Dafny

shopify-psrestful keeps a Shopify shop in step with PromoStandards suppliers. It reads
product and inventory data from the PSRESTful API and writes the inventory to the shop. This
project models the core of that program as pure functions over datatypes, sequences, maps
and strings, and proves properties of the model. The network, the Shopify SDK and the
response parsers are parameters (oracles).

The model covers:

- **Domain** (`domain.dfy`): the service codes and their `str()`, the ordered service list,
  versions and `ServiceVersion.fromstr`, environments, function names, and the version to
  response-schema lookups.
- **Endpoints** (`endpoints.dfy`): `gen_srv_func`, the lookup of a `(service, function)` pair
  in the translation table and the ids-only rewrite. Three rows of the table are written with
  keys that no lookup can produce, so their pairs raise. The services `PDC` and `SPCC` always
  raise too.
- **Requests** (`requests.dfy`): `gen_url`, `gen_qry_params`, and the query parameters
  `perform_request` sends, where `environment` is always added.
- **Categories** (`categories.dfy`): `gen_categories`, which reads a filter written
  `category > sub-category`.
- **Services** (`services.dfy`): `ServiceHelper`. This covers the per-supplier cache of
  latest production versions, how a services answer fills it, and how a code is read from it.
  A key of the decoded answer is missing, null or present, and a null is handled as Python
  handles `None`: it is skipped where it is compared for equality, and a TypeError where it
  is ordered or iterated.
- **Client** (`client.dfy`):
  - version resolution for product and inventory calls;
  - the requests `get_product_detail` and `get_inventory` send;
  - the status handling of `get_product` and `get_inventory`;
  - the three-attempt retry;
  - the `get_products` walk over a supplier's catalogue.
- **Products** (`products.dfy`): `get_all_shopify_products`, which pages through the shop with
  `since_id`. The walk is checked against a shop that answers with the products after the
  given id.
- **Inventory** (`inventory.dfy`): the `InventoryService` sweep. It makes one inventory write
  per variant of each supplier product, and its per-product exception handling skips only the
  product at fault.

Helpers that model Python's string operations live in `text.dfy`:

- ASCII `lower`;
- `strip`;
- `split` and `join`;
- `replace`;
- string order.

The `Result`/`Option` types live in `wrappers.dfy`, with the exceptions the program raises.

## Model

| member | source | states |
|---|---|---|
| Domain.ServiceStr | src/shopify_psrestful/domain.py:24-25 | `str()` of a service is its member name, never its description, and no two services share one |
| Domain.OrderedServicesAreTheListedMembers | src/shopify_psrestful/domain.py:9 | the service list has eight distinct names: exactly the members other than PDC and SPCC |
| Domain.VersionByValue | src/shopify_psrestful/domain.py:28-32 | constructing a version from a string gives the member with that value, or, exactly when no member has it, a ValueError |
| Domain.FromStr | src/shopify_psrestful/domain.py:34-36 | `fromstr` gives None for the empty string; otherwise it gives the member whose value is `v` + input, and, when there is none, a ValueError |
| Domain.FromStrRoundTrip | src/shopify_psrestful/domain.py:34-36 | a member's value without its leading `v` goes through `fromstr` back to that member |
| Domain.FromStrOfValueFails | src/shopify_psrestful/domain.py:34-36 | a member's full value always fails `fromstr`, because `vv…` is no member |
| Domain.ProductClass | src/shopify_psrestful/domain.py:101-103 | a product schema exists exactly for v1.0.0 and v2.0.0, parsing that version; other versions are a KeyError |
| Domain.InventoryClass | src/shopify_psrestful/domain.py:106-108 | an inventory schema exists exactly for v1.2.1 and v2.0.0, parsing that version; other versions are a KeyError |
| Endpoints.SegmentLookup | src/shopify_psrestful/ps_client.py:141-180 | a pair resolves exactly when its lowered `name - function` key is a table key; otherwise it is the ValueError naming the lowered pair |
| Endpoints.GenSrvFunc | src/shopify_psrestful/ps_client.py:141-183 | it fails exactly when the lookup fails, with the same error; without the ids-only flag it is the looked-up segment |
| Endpoints.LookupKeyHasNoUpper | src/shopify_psrestful/ps_client.py:142-143 | every lookup key is lower-case |
| Endpoints.UpperCaseKeysUnreachable | src/shopify_psrestful/ps_client.py:169-170 | the two keys written with capitals equal no pair's lookup key |
| Endpoints.DoubleSpacedKeyUnreachable | src/shopify_psrestful/ps_client.py:175 | the key written with a doubled space equals no pair's lookup key |
| Endpoints.IntendedRowsResolve | src/shopify_psrestful/ps_client.py:144-183 | each of the 20 reachable rows resolves to its segment; the ids-only flag turns `sellables` into `sellable-product-ids` and changes no other segment |
| Endpoints.UnreachableRowsRaise | src/shopify_psrestful/ps_client.py:169-180 | the three pairs whose rows are dead raise ValueError, with or without the flag |
| Endpoints.UnlistedServicesRaise | src/shopify_psrestful/ps_client.py:178-180 | PDC and SPCC raise ValueError for every function |
| Text.ReplaceAbsent | src/shopify_psrestful/ps_client.py:182 | `replace` leaves a string without the pattern unchanged |
| Requests.GenQryParams | src/shopify_psrestful/ps_client.py:128-131 | exactly the given parameters with truthy values are kept, unchanged; no parameters give the empty map |
| Requests.QryParamsIdempotent | src/shopify_psrestful/ps_client.py:128-131 | dropping falsy parameters a second time changes nothing |
| Requests.RequestParams | src/shopify_psrestful/ps_client.py:106-110 | the sent parameters are the kept ones plus `environment`, which holds the environment's text; other values are unchanged |
| Requests.EnvironmentOverrides | src/shopify_psrestful/ps_client.py:109-110 | an Environment member and its value send the same parameters, and a caller's own `environment` is overwritten |
| Requests.GenUrl | src/shopify_psrestful/ps_client.py:133-138 | the URL fails exactly when the segment lookup fails, with its error |
| Requests.UrlParts | src/shopify_psrestful/ps_client.py:133-135 | the URL splits back into base, version value, `/suppliers/<code>/` and segment |
| Requests.UrlWithProductId | src/shopify_psrestful/ps_client.py:136-137 | a non-empty product id is appended after one `/` |
| Requests.EmptyProductIdIgnored | src/shopify_psrestful/ps_client.py:136-137 | an empty product id gives the same URL as none |
| Requests.PerformRequest | src/shopify_psrestful/ps_client.py:106-110 | the request fails exactly when the URL fails; otherwise it carries that URL and the sent parameters |
| Categories.GenCategories | src/shopify_psrestful/ps_client.py:88-97 | a falsy input comes back with no sub-category; without `>` the category is only lowered; with `>` both parts are lower-case, stripped and free of `>` |
| Categories.ReadsBackWrittenFilter | src/shopify_psrestful/ps_client.py:91-96 | a filter written `a > b`, with any whitespace around either part, is read back as `(a, b)` when the parts are trimmed, lower-case and free of `>` |
| Categories.LaterPiecesIgnored | src/shopify_psrestful/ps_client.py:94-96 | text after a second `>` does not change the result |
| Categories.CaseInsensitive | src/shopify_psrestful/ps_client.py:91-92 | a filter and its lower-cased form give the same result |
| Categories.EmptyCategoryPiece | src/shopify_psrestful/ps_client.py:88-97 | ` > b` gives an empty, falsy category with sub-category `b` |
| Services.LatestLoopFails | src/shopify_psrestful/ps_services.py:37-44 | picking the latest version succeeds exactly when every entry has an `environment` key, every production entry a `version` key, and a null production version comes before any version string (a null after one cannot be compared) |
| Services.LatestIsGreatestProd | src/shopify_psrestful/ps_services.py:37-44 | the result is None exactly when there is no production version; otherwise it is one of them, and no production version is greater in string order |
| Services.LatestLoopIsMax | src/shopify_psrestful/ps_services.py:39-43 | the loop's result is its start value or a production version, and no production version is greater |
| Services.OtherEnvironmentsIgnored | src/shopify_psrestful/ps_services.py:40 | dropping the entries whose environment is another one, or null, does not change the result |
| Services.StringOrderNotNumeric | src/shopify_psrestful/ps_services.py:42 | `1.10.0` sorts before `1.9.0`, so `1.9.0` is chosen over `1.10.0` |
| Services.NullsAsInPython | src/shopify_psrestful/ps_services.py:40-43 | a null environment is not production; a null production version before any version string leaves the result None for the moment; one after a version string is a TypeError |
| Services.FillOut | src/shopify_psrestful/ps_services.py:21-34 | a non-200 answer raises an HTTP error carrying its status and text, and leaves the cache as it was; a 200 answer creates the supplier's entry; other suppliers are untouched |
| Services.FillLoopContents | src/shopify_psrestful/ps_services.py:28-34 | the loop adds only listed services with their contribution, and after a full pass every contributing service is there |
| Services.FillOutContents | src/shopify_psrestful/ps_services.py:26-34 | after a fill the entry holds only listed services, each with its non-empty latest production version; a complete fill holds exactly those that have one |
| Services.MissingVersionsLeavesPartialEntry | src/shopify_psrestful/ps_services.py:27-31 | a service object without a `versions` key raises KeyError, and the supplier's partial entry stays cached |
| Services.GetLatestCode | src/shopify_psrestful/ps_services.py:16-19 | a cached supplier is read without a request; an uncached one costs one request and leaves the cache as the fill left it; a service present in the cached or completely filled entry gives its value; a failed fill's exception is passed on; a service missing from a cached or completely filled entry is a KeyError naming the service |
| Services.FilledAtMostOnce | src/shopify_psrestful/ps_services.py:16-19 | after a 200 answer, later lookups for that supplier ask nothing and leave the cache alone |
| Services.FailedFetchRetried | src/shopify_psrestful/ps_services.py:24-25 | a failed services answer creates no entry, so the next lookup asks again |
| Services.CodeIsLatestProd | src/shopify_psrestful/ps_services.py:16-44 | a code read after a fill is a listed service's non-empty latest production version; a failure is a KeyError, or a TypeError for a null `versions` or a null version compared with a string |
| Client.LatestVersion | src/shopify_psrestful/ps_client.py:239-253 | a given version is used as is, with no lookup; otherwise the lookup's cache and request count are kept, a failed lookup's error is passed on, an empty code is the "No … version found for supplier …" ValueError, and a non-empty code resolves exactly when `v` + code is some member's value, to a member whose value that is, failing otherwise with a ValueError |
| Client.CodeResolves | src/shopify_psrestful/ps_client.py:239-253 | a looked-up code that is a member's value without its `v` resolves to that member |
| Client.CachedCodeResolves | src/shopify_psrestful/ps_client.py:239-245 | a cached code that is a member's value without `v` resolves to that member, with no request |
| Client.EmptyCodeUnreachable | src/shopify_psrestful/ps_client.py:242-244 | codes come from a filled cache and are never empty, so the "No … version found" error cannot occur: a failure is the fill's KeyError or TypeError, or the unknown-version ValueError |
| Client.ProductDetailRequest | src/shopify_psrestful/ps_client.py:255-263 | `get_product_detail` asks for `<base><version>/suppliers/<code>/products/<id>` with only `environment=PROD` |
| Client.InventoryRequest | src/shopify_psrestful/ps_client.py:272-294 | `get_inventory` asks for `…/suppliers/<code>/inventory/<id>`; the filter is sent exactly when both its parts are given |
| Client.ProductResponseAsWritten | src/shopify_psrestful/ps_client.py:37-43 | as written: 429 is the rate-limit error and any other non-200 status is an HTTP error, both before any parsing |
| Client.ProductResponseAsWrittenRaises | src/shopify_psrestful/ps_client.py:43 | as written, a 200 response always raises ValueError: `fromstr` is given a full version value |
| Client.ProductResponse | src/shopify_psrestful/ps_client.py:37-43 | corrected: the same status errors; a 200 body is parsed with the schema its version selects, or is that version's KeyError |
| Client.InventoryResponse | src/shopify_psrestful/ps_client.py:78-86 | 429 and other non-200 statuses raise before parsing; a 200 body is parsed with the inventory schema its version selects |
| Client.ParsedOnlyOn200 | src/shopify_psrestful/ps_client.py:301-311 | no response other than 200 is ever parsed, for products or inventory |
| Client.Retry3 | src/shopify_psrestful/ps_client.py:32 | three attempts: the call returns exactly when some attempt returns, with the value of the first attempt that returns, and otherwise raises RetryError with the last exception |
| Client.FetchProductAsWrittenAlwaysRaises | src/shopify_psrestful/ps_client.py:32-43 | as written, `get_product` raises on every call, whatever the responses |
| Client.FetchProductParses | src/shopify_psrestful/ps_client.py:32-43 | corrected: a first attempt with a 200 response for a product version returns the parsed body |
| Client.AllowListed | src/shopify_psrestful/ps_client.py:48-50 | without an allow-list every sellable id is walked; with one, exactly the sellable ids on it, each as often as it is sellable, in sellable order |
| Client.KeepListed | src/shopify_psrestful/ps_client.py:50 | the comprehension keeps every occurrence of a listed id and nothing else, as a subsequence of the input |
| Client.AttemptBound | src/shopify_psrestful/ps_client.py:52-57 | index `ix` of the list is fetched exactly when the loop gets past `if ix >= max_products: break`; so at most `max_products` ids, and none for a bound of 0 or below |
| Client.GetProducts | src/shopify_psrestful/ps_client.py:45-68 | the walk parses the category filter, fetches the bounded prefix of allow-listed ids one by one, and yields exactly the kept products in order |
| Client.WalkedIsKept | src/shopify_psrestful/ps_client.py:54-68 | a product is yielded if and only if some walked id's fetch returned it and it has data and matches the filter |
| Client.NoCategoryKeepsAllWithData | src/shopify_psrestful/ps_client.py:59-64 | without a category, every product with data is yielded |
| Client.WalkOfFailuresIsEmpty | src/shopify_psrestful/ps_client.py:54-68 | a walk whose every fetch raises yields nothing: each exception is swallowed inside the loop |
| Client.GetProductsAsWrittenYieldsNothing | src/shopify_psrestful/ps_client.py:45-68 | as written, `get_products` yields no product at all |
| Products.ShopifyPage | src/shopify_psrestful/products.py:23-26 | a page request returns exactly when one of three attempts does, with the first successful attempt's page, and otherwise raises RetryError with the third attempt's exception |
| Products.PagesShape | src/shopify_psrestful/products.py:11-20 | the walk starts at its `since_id`; request `i` returned page `i` with the same limit; a request follows only a full page, from its last id; it ends on the first short page or on an exception |
| Products.NonPositiveLimitNeverEnds | src/shopify_psrestful/products.py:19-20 | with `limit <= 0` no page is short, so the walk never ends by itself |
| Products.AllShopifyProducts | src/shopify_psrestful/products.py:6-26 | the generator starts at `since_id` 0; each page is what the retried `get_shopify_products` returned for its `since_id`; a later request follows a full page, from its last id; a complete walk ends on a short page; an exception ending the generator is the RetryError of the last request; a walk neither complete nor failed has used all its fuel |
| Products.WalkServed | src/shopify_psrestful/products.py:6-20 | when the pages hand out a product list, the walk yields exactly that list, with one request per full page plus one for the final short page |
| Products.WalkReadsWholeShop | src/shopify_psrestful/products.py:6-20 | against a shop of increasing positive ids, every product is yielded once, in order, and a full final page costs one more empty request |
| Products.AllProductsReadWholeShop | src/shopify_psrestful/products.py:6-26 | against a shop of increasing positive ids, where a rate-limited attempt raises and a successful one answers as the shop does, the generator yields the whole shop once, in order, with no exception |
| Products.FullFullShort | src/shopify_psrestful/products.py:11-20 | two full pages and a short one give exactly three requests, from 0 and from the last id of each full page |
| Inventory.Truncate | src/shopify_psrestful/inventory.py:58 | `int()` of a real rounds toward zero |
| Inventory.Quantity | src/shopify_psrestful/inventory.py:57-58 | the written quantity is `int(available)` when that is truthy and 0 otherwise |
| Inventory.QuantityTowardZero | src/shopify_psrestful/inventory.py:58 | the quantity keeps the sign of the reported amount and differs from it by less than one unit |
| Inventory.VariantAttempt | src/shopify_psrestful/inventory.py:55-63 | an attempt writes at the location, for the variant's own inventory item, the quantity reported for its `sku` (`None` when the sku is null); it succeeds exactly when that quantity is known and the shop accepts the write; a variant whose attributes have no `sku` key is a KeyError |
| Inventory.UpdateVariant | src/shopify_psrestful/inventory.py:53-63 | the retried update writes the variant's own item at the location, with the quantity reported for its `sku`; with that quantity known it succeeds exactly when one of the three attempts' writes is accepted; an unknown quantity or a missing `sku` key ends in the RetryError of that exception, and any failure is the RetryError of the third attempt |
| Inventory.NullSkuIsLookedUp | src/shopify_psrestful/inventory.py:55-63 | a null `sku` raises nothing itself: the quantity for part `None` is written |
| Inventory.VariantWrites | src/shopify_psrestful/inventory.py:47-48 | one write per variant, in variant order, until the first variant whose update raises |
| Inventory.ProductEffect | src/shopify_psrestful/inventory.py:40-51 | a lookup exception aborts the sweep; missing codes skip the product with no fetch; a levels request that raised is the product's failure, with no writes; not-ok levels mean no writes and no failure; ok levels give exactly the variant loop's writes and failure |
| Inventory.DefaultLocation | src/shopify_psrestful/inventory.py:32-35 | the location is the first one listed, and an empty list is an IndexError |
| Inventory.UpdateInventory | src/shopify_psrestful/inventory.py:25-51 | the location is read once, before the sweep; the sweep over what `get_all_shopify_products()` yields, with its default limit of 200, equals the product-by-product reference, ended by the generator's exception if there is one |
| Inventory.SweepAppend | src/shopify_psrestful/inventory.py:38-51 | sweeping `a + b` is sweeping `a` and then, unless `a` aborted, sweeping `b` |
| Inventory.MissingCodesSkipped | src/shopify_psrestful/inventory.py:40-43 | a product without a supplier code or product id adds nothing, and the sweep goes on |
| Inventory.FailureSkipsOnlyItsProduct | src/shopify_psrestful/inventory.py:44-51 | an exception inside the try affects only its own product; the products before and after are swept as usual |
| Inventory.LookupFailureAborts | src/shopify_psrestful/inventory.py:40 | an exception from the id lookup ends the sweep, and no later product is looked at |
| Inventory.OneWritePerVariant | src/shopify_psrestful/inventory.py:46-63 | with ok levels and successful updates, a product makes exactly one write per variant, in order, each at the location with the variant's item and quantity |

## Left out

- HTTP I/O is left out: `httpx` requests, headers, timeouts and the async `a_*` variants. A request is modelled up to the URL and query parameters, and each answer is a parameter.
- Timing is left out: `time.monotonic` and `get_duration`, which uses floating point and Decimal rounding.
- tenacity's `wait_fixed` sleeping is left out. Only the three-attempt bound is modelled, as `Client.Retry3`.
- The psdomain response classes are oracles: pydantic parsing, `data`, `belongs_to`, `is_ok` and `get_available_inventory`.
- The Shopify SDK is a parameter:
  - `Product.find` and `Location.find`;
  - `InventoryLevel.set`;
  - the session context manager.
- `get_supplier_and_product_id` is imported by the inventory sweep, but metafields.py does not define it. It is an oracle here.
- The sellable ids are given to the walk directly, so `get_sellable_product_ids`, `get_sellables` and `gen_sellables_resp` are not part of this model. An exception from that call would propagate out of `get_products` before the walk.
- The logging in `get_products` reads `product.message`; that is left out, as is all other logging.
- cli.py and settings are left out.
- Inventory.UpdateInventory: its `inventory` oracle stands for `PSClient.get_inventory`. That call's status handling is modelled separately by `Client.InventoryResponse` and is not composed into the sweep.
- Client.InventoryResponse: the exception `gen_inventory_response` raises on a non-200 status is unreachable, because `get_inventory` checked the status first. It is modelled as an opaque remote error.
- Client.ProductResponse: the source raises a plain `Exception` with a message for 429 and for other failed statuses. The model names these `RateLimited` and `HttpError`, and drops the message text.
- Client.InventoryResponse: `get_inventory` raises a plain `Exception` for 429 and for other failed statuses, with a message naming the supplier and the product id (and the response text). The model names these `RateLimited(supplier)` and `HttpError(status, text)`, and drops the message text.
- Services.FillOut: a non-200 services answer raises a plain `Exception` whose message is "Error getting services for supplier <code>: <text>". The model keeps the status and the text in `HttpError` and drops the fixed prefix.
- Inventory.UpdateInventory: `get_all_shopify_products` is a lazy generator, so after an aborting lookup the source asks the shop for no further page. The model reads the fuel-bounded walk first and sweeps it afterwards. The writes, fetches and final exception are the same; the number of page requests after an abort is not modelled.
- Inventory.Quantity: a Python float is modelled as a real, so NaN and infinity are left out. `int()` raises on them (ValueError or OverflowError), which would make the variant's update retry and then skip the product.
- Requests.EnvString: the text of an Environment member is taken as its value. That relies on the `__str__` of psdomain's `StrEnum`, and psdomain is not part of this model.
- Products.PagesShape: `get_all_shopify_products` has no bound, and with `limit <= 0` it never stops. The model walks for at most `fuel` requests and reports whether the walk ended on a short page.
- Text.Lower: Python's `str.lower` is modelled on ASCII letters only.
- Text.Strip: Python's `str.strip` is modelled on the whitespace characters below U+0100 only (ASCII whitespace, U+001C to U+001F, U+0085 and U+00A0). Wider Unicode spaces are not recognised.
- Domain.VersionByValue: the ValueError message quotes the string in single quotes, as `repr` does for a string with no quote or unprintable character in it; `repr`'s other quoting and escaping are not modelled.
- Services.LatestLoop: a JSON value of the wrong type (a number where a string is expected, an object where a list is) is not modelled; a key holds a string, a list, or null. The TypeError carries no message.
- Endpoints.SegmentLookup: that a pair outside the table raises is stated once, through key membership. It is not spelled out pair by pair.

## Findings

| source | as written | input that shows it | evidently intended | confidence | as-written member | corrected member |
|---|---|---|---|---|---|---|
| src/shopify_psrestful/ps_client.py:43 | `get_product` passes `ServiceVersion.fromstr(version)` to the parser, but `version` is already a `ServiceVersion`, so `fromstr` builds `'vv1.0.0'` and raises ValueError | any 200 response, e.g. version v1.0.0; after three attempts `get_product` raises RetryError, and `get_products` swallows it and yields nothing | parse with the schema of `version` itself | not executed | Client.ProductResponseAsWritten | Client.ProductResponse |

=== FILE: categories.dfy ===
/** `PSClient.gen_categories`: a category filter written `category > sub-category`. */
module Categories {
  import opened Wrappers
  import opened Text

  /** The pair `gen_categories` returns; the category is `None` only when it was given so. */
  datatype CategoryFilter = CategoryFilter(category: Option<string>, subCategory: Option<string>)

  /** Python truthiness of an optional string. */
  predicate Given(s: Option<string>) {
    s.Some? && s.value != []
  }

  /** A string with no whitespace at either end. */
  predicate Trimmed(s: string) {
    s == [] || (!IsSpace(s[0]) && !IsSpace(s[|s| - 1]))
  }

  /** `PSClient.gen_categories`: a falsy input comes back as it is; otherwise it is lower-cased
      and, when it holds a `>`, cut at the separators into a stripped category and a stripped
      sub-category (pieces after the second are dropped). */
  function GenCategories(category: Option<string>): (r: CategoryFilter)
    ensures !Given(category) ==> r == CategoryFilter(category, None)
    ensures Given(category) && '>' !in category.value ==>
      r == CategoryFilter(Some(Lower(category.value)), None)
    ensures Given(category) && '>' in category.value ==>
      r.category.Some? && Trimmed(r.category.value) && NoUpper(r.category.value) && '>' !in r.category.value
      && r.subCategory.Some? && Trimmed(r.subCategory.value) && NoUpper(r.subCategory.value)
      && '>' !in r.subCategory.value
  {
    if !Given(category) then CategoryFilter(category, None)
    else
      var lowered := Lower(category.value);
      LowerKeepsSeparator(category.value);
      if '>' in lowered then
        var parts := Split(lowered, '>');
        LowerIsLowerCase(category.value);
        SplitKeepsNoUpper(lowered, '>');
        StripKeepsNoUpper(parts[0]);
        StripKeepsNoUpper(parts[1]);
        StripKeepsAbsent(parts[0], '>');
        StripKeepsAbsent(parts[1], '>');
        CategoryFilter(Some(Strip(parts[0])), Some(Strip(parts[1])))
      else
        CategoryFilter(Some(lowered), None)
  }

  // ---------------------------------------------------------------- helpers

  lemma LowerKeepsSeparator(s: string)
    ensures '>' in Lower(s) <==> '>' in s
  {
    LowerKeepsOthers(s, '>');
  }

  /** Stripping keeps a substring of the input. */
  lemma StripIsSlice(s: string)
    ensures exists i, j :: 0 <= i <= j <= |s| && Strip(s) == s[i..j]
  {
    var a := LeadingSpace(s);
    var rest := s[a..];
    var b := TrailingCut(rest);
    assert Strip(s) == s[a..a + b];
  }

  lemma StripKeepsNoUpper(s: string)
    requires NoUpper(s)
    ensures NoUpper(Strip(s))
  {
    StripIsSlice(s);
    var i, j :| 0 <= i <= j <= |s| && Strip(s) == s[i..j];
    assert forall k :: 0 <= k < j - i ==> Strip(s)[k] == s[i + k];
  }

  lemma StripKeepsAbsent(s: string, c: char)
    requires c !in s
    ensures c !in Strip(s)
  {
    StripIsSlice(s);
    var i, j :| 0 <= i <= j <= |s| && Strip(s) == s[i..j];
    assert forall k :: 0 <= k < j - i ==> Strip(s)[k] == s[i + k];
  }

  /** Every piece of a split is a slice of the input, so a lower-case input gives lower-case
      pieces. */
  lemma {:induction false} SplitKeepsNoUpper(s: string, sep: char)
    requires NoUpper(s)
    ensures forall k :: 0 <= k < |Split(s, sep)| ==> NoUpper(Split(s, sep)[k])
    decreases |s|
  {
    if sep in s {
      var i := IndexOf(s, sep);
      NoUpperSlice(s, 0, i);
      NoUpperSlice(s, i + 1, |s|);
      assert s[i + 1..|s|] == s[i + 1..];
      SplitAt(s, sep, i);
      SplitKeepsNoUpper(s[i + 1..], sep);
    }
  }

  lemma NoUpperSlice(s: string, i: nat, j: nat)
    requires NoUpper(s) && i <= j <= |s|
    ensures NoUpper(s[i..j])
  {
    forall k | 0 <= k < j - i ensures !IsUpper(s[i..j][k]) { assert s[i..j][k] == s[i + k]; }
  }

  /** Whitespace around a trimmed string is stripped away. */
  lemma StripPadded(pre: string, core: string, post: string)
    requires AllSpace(pre) && AllSpace(post) && Trimmed(core)
    ensures Strip(pre + core + post) == core
  {
    var s := pre + core + post;
    assert s[..|pre|] == pre;
    assert s[|pre| + |core|..] == post;
    assert s[|pre|..|pre| + |core|] == core;
    if core == [] {
      assert s[|pre|..|pre|] == [];
    }
    StripIsTheTrim(s, |pre|, |pre| + |core|);
  }

  // ---------------------------------------------------------------- properties

  /** A string with one `>` splits into the text on either side of it. */
  lemma SplitWrittenFilter(left: string, right: string)
    requires '>' !in left && '>' !in right
    ensures Split(left + ">" + right, '>') == [left, right]
  {
    assert Join([left, right], '>') == left + ">" + right;
    SplitJoin([left, right], '>');
  }

  /** Whitespace holds no upper-case letter and no `>`, so padding a part with it keeps both
      properties. */
  lemma PaddedPlain(pre: string, core: string, post: string)
    requires AllSpace(pre) && AllSpace(post) && NoUpper(core) && '>' !in core
    ensures NoUpper(pre + core + post) && '>' !in pre + core + post
  {
    var s := pre + core + post;
    forall k | 0 <= k < |s| ensures !IsUpper(s[k]) && s[k] != '>' {
      if k < |pre| { assert s[k] == pre[k]; }
      else if k < |pre| + |core| { assert s[k] == core[k - |pre|]; }
      else { assert s[k] == post[k - |pre| - |core|]; }
    }
  }

  lemma WrittenFilterNoUpper(left: string, right: string)
    requires NoUpper(left) && NoUpper(right)
    ensures NoUpper(left + ">" + right)
  {
    var s := left + ">" + right;
    forall k | 0 <= k < |s| ensures !IsUpper(s[k]) {
      if k < |left| { assert s[k] == left[k]; }
      else if k > |left| { assert s[k] == right[k - |left| - 1]; }
    }
  }

  /** A filter written `a > b`, with any whitespace around either part, is read back as
      `(a, b)` when the parts are trimmed, lower-case and free of `>`. */
  lemma ReadsBackWrittenFilter(pre: string, a: string, post: string, pre2: string, b: string, post2: string)
    requires AllSpace(pre) && AllSpace(post) && AllSpace(pre2) && AllSpace(post2)
    requires Trimmed(a) && Trimmed(b) && NoUpper(a) && NoUpper(b)
    requires '>' !in a && '>' !in b
    ensures GenCategories(Some(pre + a + post + ">" + pre2 + b + post2)) == CategoryFilter(Some(a), Some(b))
  {
    var left, right := pre + a + post, pre2 + b + post2;
    var s := left + ">" + right;
    assert s == pre + a + post + ">" + pre2 + b + post2;
    PaddedPlain(pre, a, post);
    PaddedPlain(pre2, b, post2);
    WrittenFilterNoUpper(left, right);
    LowerIsLowerCase(s);
    SplitWrittenFilter(left, right);
    assert s[|left|] == '>';
    StripPadded(pre, a, post);
    StripPadded(pre2, b, post2);
  }

  /** Lowering keeps the position of the first separator and the absence of a second. */
  lemma LowerKeepsOneSeparator(s: string)
    requires '>' in s && '>' !in s[IndexOf(s, '>') + 1..]
    ensures '>' in Lower(s) && '>' !in Lower(s)[IndexOf(Lower(s), '>') + 1..]
  {
    var ls := Lower(s);
    LowerKeepsOthers(s, '>');
    LowerKeepsSeparator(s);
    var i := IndexOf(s, '>');
    assert IndexOf(ls, '>') == i by {
      assert ls[i] == '>';
      assert '>' !in ls[..i] by {
        forall k | 0 <= k < i ensures ls[..i][k] != '>' { assert s[..i][k] == s[k]; }
      }
    }
    forall k | i + 1 <= k < |ls| ensures ls[k] != '>' { assert s[i + 1..][k - i - 1] == s[k]; }
  }

  /** With a separator present, the result is read off the first two pieces of the lowered
      input. */
  lemma FromFirstTwoPieces(s: string)
    requires '>' in s
    ensures var parts := Split(Lower(s), '>');
      |parts| >= 2 && GenCategories(Some(s)) == CategoryFilter(Some(Strip(parts[0])), Some(Strip(parts[1])))
  {
    LowerKeepsSeparator(s);
  }

  /** Only the first two pieces matter: anything after a second `>` is ignored. */
  lemma LaterPiecesIgnored(s: string, more: string)
    requires '>' in s && '>' !in s[IndexOf(s, '>') + 1..]
    ensures GenCategories(Some(s + ">" + more)) == GenCategories(Some(s))
  {
    var t := s + ">" + more;
    LowerAppend(s + ">", more);
    LowerAppend(s, ">");
    LowerSeparator();
    assert t[|s|] == '>';
    LowerKeepsOneSeparator(s);
    SplitTwoPieces(Lower(s), Lower(more));
    FromFirstTwoPieces(s);
    FromFirstTwoPieces(t);
  }

  lemma LowerSeparator()
    ensures Lower(">") == ">"
  {
  }

  /** Splitting `x + ">" + y`, where `x` holds exactly one separator, gives the two pieces of
      `x` first. */
  lemma SplitTwoPieces(x: string, y: string)
    requires '>' in x && '>' !in x[IndexOf(x, '>') + 1..]
    ensures var p, q := Split(x, '>'), Split(x + ">" + y, '>');
      |p| == 2 && |q| >= 3 && q[0] == p[0] && q[1] == p[1]
  {
    var i := IndexOf(x, '>');
    var rest := x[i + 1..];
    SplitAt(x, '>', i);
    assert Split(x, '>') == [x[..i]] + [rest];
    SplitCons(x[..i], rest + ">" + y, '>');
    AroundIndex(x, i);
    Regroup(x[..i], ">", rest, y);
    SplitCons(rest, y, '>');
  }

  lemma Regroup(a: string, s: string, b: string, c: string)
    ensures a + s + b + s + c == a + s + (b + s + c)
  {
  }

  /** Case does not matter: a filter and its lower-cased form give the same result. */
  lemma CaseInsensitive(s: string)
    requires s != []
    ensures GenCategories(Some(s)) == GenCategories(Some(Lower(s)))
  {
    LowerIsLowerCase(s);
    LowerKeepsSeparator(s);
    LowerKeepsSeparator(Lower(s));
  }

  /** An empty piece before the `>` gives an empty, hence falsy, category, so the
      sub-category is read but no category filter applies. */
  lemma EmptyCategoryPiece(b: string)
    requires Trimmed(b) && NoUpper(b) && '>' !in b
    ensures GenCategories(Some(" > " + b)) == CategoryFilter(Some(""), Some(b))
    ensures !Given(GenCategories(Some(" > " + b)).category)
  {
    ReadsBackWrittenFilter("", "", " ", " ", b, "");
    assert "" + "" + " " + ">" + " " + b + "" == " > " + b;
  }
}

=== FILE: client.dfy ===
/** `PSClient` and the version-resolving part of `APIHelper`: which version a call uses, how a
    product or inventory response is judged, and the walk over a supplier's catalogue. */
module Client {
  import opened Wrappers
  import opened Domain
  import opened Endpoints
  import opened Requests
  import opened Categories
  import opened Services

  // ---------------------------------------------------------------- version resolution

  /** The outcome of resolving a version: the service cache afterwards, how many times the
      services endpoint was asked, and the version or the exception. */
  datatype Resolved = Resolved(cache: Cache, fetches: nat, version: Result<ServiceVersion>)

  /** `get_latest_product_data_version` / `get_latest_inventory_version`: a version passed in
      is used as it is; otherwise the cached code of `service` is prefixed with `v`, an empty
      code being a ValueError that names `what`. */
  function LatestVersion(cache: Cache, supplier: string, version: Option<ServiceVersion>, service: string,
                         what: string, fetch: string -> ServicesResponse): (r: Resolved)
    ensures version.Some? ==> r == Resolved(cache, 0, Ok(version.value))
    ensures version.None? ==> r.cache == GetLatestCode(cache, supplier, service, fetch).cache
    ensures version.None? && r.version.Ok? ==>
      GetLatestCode(cache, supplier, service, fetch).code == Ok(VersionValue(r.version.value)[1..])
    ensures version.None? && GetLatestCode(cache, supplier, service, fetch).code.Err? ==>
      r.version == Err(GetLatestCode(cache, supplier, service, fetch).code.error)
    ensures version.None? ==> r.fetches == GetLatestCode(cache, supplier, service, fetch).fetches
    ensures version.None? && GetLatestCode(cache, supplier, service, fetch).code == Ok([]) ==>
      r.version == Err(ValueError("No " + what + " version found for supplier " + supplier))
    ensures version.None? && GetLatestCode(cache, supplier, service, fetch).code.Ok? ==>
      var code := GetLatestCode(cache, supplier, service, fetch).code.value;
      code != [] ==> (r.version.Ok? <==> exists v: ServiceVersion :: VersionValue(v) == "v" + code)
    ensures version.None? && GetLatestCode(cache, supplier, service, fetch).code.Ok? && r.version.Err? ==>
      r.version.error.ValueError?
  {
    if version.Some? then Resolved(cache, 0, Ok(version.value))
    else
      var lookup := GetLatestCode(cache, supplier, service, fetch);
      var v: Result<ServiceVersion> :=
        if lookup.code.Err? then Err(lookup.code.error)
        else if lookup.code.value == [] then Err(ValueError("No " + what + " version found for supplier " + supplier))
        else VersionByValue("v" + lookup.code.value);
      if v.Ok? then
        assert VersionValue(v.value) == "v" + lookup.code.value;
        assert VersionValue(v.value)[1..] == lookup.code.value;
        Resolved(lookup.cache, lookup.fetches, v)
      else Resolved(lookup.cache, lookup.fetches, v)
  }

  /** `APIHelper.get_latest_product_data_version`. */
  function ProductVersion(cache: Cache, supplier: string, version: Option<ServiceVersion>,
                          fetch: string -> ServicesResponse): Resolved {
    LatestVersion(cache, supplier, version, "Product", "product", fetch)
  }

  /** `APIHelper.get_latest_inventory_version`. */
  function InventoryVersion(cache: Cache, supplier: string, version: Option<ServiceVersion>,
                            fetch: string -> ServicesResponse): Resolved {
    LatestVersion(cache, supplier, version, "INV", "inventory", fetch)
  }

  /** A looked-up code that is a member's value without its `v` resolves to that member. */
  lemma CodeResolves(cache: Cache, supplier: string, service: string, what: string,
                     fetch: string -> ServicesResponse, v: ServiceVersion)
    requires GetLatestCode(cache, supplier, service, fetch).code == Ok(VersionValue(v)[1..])
    ensures LatestVersion(cache, supplier, None, service, what, fetch).version == Ok(v)
  {
    FromStrRoundTrip(v);
  }

  /** A cached code that is a member's value without its `v` resolves to that member. */
  lemma CachedCodeResolves(cache: Cache, supplier: string, service: string, what: string,
                           fetch: string -> ServicesResponse, v: ServiceVersion)
    requires supplier in cache && service in cache[supplier]
    requires cache[supplier][service] == VersionValue(v)[1..]
    ensures LatestVersion(cache, supplier, None, service, what, fetch) == Resolved(cache, 0, Ok(v))
  {
    FromStrRoundTrip(v);
  }

  /** The empty-code branch cannot be reached through the cache: after a fill, codes are never
      empty, so the only exceptions are the fill's (a missing key, or a null where a value was
      needed), a missing service, or an unknown version. */
  lemma EmptyCodeUnreachable(supplier: string, service: string, what: string, fetch: string -> ServicesResponse)
    requires fetch(supplier).status == 200
    ensures var r := LatestVersion(map[], supplier, None, service, what, fetch);
      r.version.Err? ==>
        r.version.error.KeyError? || r.version.error.TypeError?
        || (r.version.error.ValueError? && "'v" <= r.version.error.message)
  {
    CodeIsLatestProd(supplier, service, fetch);
  }

  // ---------------------------------------------------------------- building the calls

  /** The parameters `get_product_detail` sends: production, the product service's
      `getProduct`, no query parameters. */
  function ProductDetailParams(supplier: string, v: ServiceVersion): ApiParams {
    ApiParams(EnvMember(PROD), supplier, Product, v, GetProduct, None, false)
  }

  /** The parameters `_get_inventory_common` sends: the inventory service's
      `getInventoryLevels`, with `{filter_type: filter_value}` only when both are given. */
  function InventoryParams(supplier: string, env: EnvArg, v: ServiceVersion,
                           filterType: Option<string>, filterValue: Option<string>): ApiParams {
    var query := if Given(filterType) && Given(filterValue)
      then Some(map[filterType.value := PyStr(filterValue.value)]) else None;
    ApiParams(env, supplier, INV, v, GetInventoryLevels, query, false)
  }

  /** The request of `get_product_detail` for a known version: `…/suppliers/<supplier>/products/<id>`
      with only `environment=PROD` as a query parameter. */
  lemma ProductDetailRequest(base: string, supplier: string, v: ServiceVersion, productId: string)
    requires productId != []
    ensures PerformRequest(base, ProductDetailParams(supplier, v), Some(productId))
      == Ok(Request(base + VersionValue(v) + "/suppliers/" + supplier + "/" + "products" + "/" + productId,
                    map["environment" := PyStr("PROD")]))
  {
    IntendedRowsResolve(Product, GetProduct, false);
    var q := RequestParams(ProductDetailParams(supplier, v));
    assert q.Keys == {"environment"};
  }

  /** The request of `get_inventory` for a known version: `…/suppliers/<supplier>/inventory/<id>`;
      the filter is sent only when both its parts are given. */
  lemma InventoryRequest(base: string, supplier: string, env: EnvArg, v: ServiceVersion,
                         filterType: Option<string>, filterValue: Option<string>, productId: string)
    requires productId != []
    ensures var p := InventoryParams(supplier, env, v, filterType, filterValue);
      var r := PerformRequest(base, p, Some(productId));
      r.Ok?
      && r.value.url == base + VersionValue(v) + "/suppliers/" + supplier + "/" + "inventory" + "/" + productId
      && r.value.query["environment"] == PyStr(EnvString(env))
      && (Given(filterType) && Given(filterValue) && filterType.value != "environment" ==>
            filterType.value in r.value.query && r.value.query[filterType.value] == PyStr(filterValue.value))
      && (!(Given(filterType) && Given(filterValue)) ==> r.value.query.Keys == {"environment"})
  {
    IntendedRowsResolve(INV, GetInventoryLevels, false);
  }

  // ---------------------------------------------------------------- judging a response

  /** What the model needs of an HTTP response: its status, its text and its body. */
  datatype Response = Response(status: int, text: string, content: string)

  /** The status checks shared by `get_product` and `get_inventory`: 429 is a rate-limit error,
      any other status but 200 an HTTP error. */
  function StatusError(supplier: string, response: Response): Option<Error> {
    if response.status == 429 then Some(RateLimited(supplier))
    else if response.status != 200 then Some(HttpError(response.status, response.text))
    else None
  }

  /** `PSClient.get_product` after the request, as written: a 200 body goes to
      `gen_product_response` with `ServiceVersion.fromstr(version)`, and `version` is already
      a member. */
  function ProductResponseAsWritten<P>(supplier: string, response: Response, version: ServiceVersion,
                                       parse: (SchemaClass, string) -> Result<P>): (r: Result<P>)
    ensures response.status == 429 ==> r == Err(RateLimited(supplier))
    ensures response.status != 429 && response.status != 200 ==> r == Err(HttpError(response.status, response.text))
  {
    var failure := StatusError(supplier, response);
    if failure.Some? then Err(failure.value)
    else
      var v :- FromStr(VersionValue(version));
      if v.None? then Err(RemoteError("AttributeError"))
      else
        var cls :- ProductClass(v.value);
        parse(cls, response.content)
  }

  /** `PSClient.get_product` after the request, with the version used as it is: only a 200
      body is parsed, with the schema the version selects. */
  function ProductResponse<P>(supplier: string, response: Response, version: ServiceVersion,
                              parse: (SchemaClass, string) -> Result<P>): (r: Result<P>)
    ensures response.status == 429 ==> r == Err(RateLimited(supplier))
    ensures response.status != 429 && response.status != 200 ==> r == Err(HttpError(response.status, response.text))
    ensures response.status == 200 && ProductClass(version).Err? ==> r == Err(KeyError(VersionValue(version)))
    ensures response.status == 200 && ProductClass(version).Ok? ==>
      r == parse(ProductClass(version).value, response.content)
  {
    var failure := StatusError(supplier, response);
    if failure.Some? then Err(failure.value)
    else
      var cls :- ProductClass(version);
      parse(cls, response.content)
  }

  /** `PSClient.get_inventory` after the request: the status checks, then
      `gen_inventory_response`, which selects the schema by version and parses a 200 body. */
  function InventoryResponse<P>(supplier: string, response: Response, version: ServiceVersion,
                                parse: (SchemaClass, string) -> Result<P>): (r: Result<P>)
    ensures response.status == 429 ==> r == Err(RateLimited(supplier))
    ensures response.status != 429 && response.status != 200 ==> r == Err(HttpError(response.status, response.text))
    ensures response.status == 200 && InventoryClass(version).Err? ==> r == Err(KeyError(VersionValue(version)))
    ensures response.status == 200 && InventoryClass(version).Ok? ==>
      r == parse(InventoryClass(version).value, response.content)
  {
    var failure := StatusError(supplier, response);
    if failure.Some? then Err(failure.value)
    else
      var cls :- InventoryClass(version);
      if response.status == 200 then parse(cls, response.content)
      else Err(RemoteError(response.content))
  }

  /** A parse is only ever attempted on a 200 body. */
  lemma ParsedOnlyOn200<P>(supplier: string, response: Response, version: ServiceVersion,
                           parse: (SchemaClass, string) -> Result<P>)
    requires response.status != 200
    ensures ProductResponse(supplier, response, version, parse).Err?
    ensures InventoryResponse(supplier, response, version, parse).Err?
    ensures ProductResponse(supplier, response, version, parse)
      == InventoryResponse(supplier, response, version, parse)
  {
  }

  // ---------------------------------------------------------------- retrying

  /** tenacity's `retry(stop=stop_after_attempt(3))`: the first of three attempts that
      returns; a `RetryError` carrying the last exception when all three raise. */
  function Retry3<T>(attempt: nat -> Result<T>): (r: Result<T>)
    ensures r.Ok? <==> attempt(0).Ok? || attempt(1).Ok? || attempt(2).Ok?
    ensures attempt(0).Ok? ==> r == attempt(0)
    ensures attempt(0).Err? && attempt(1).Ok? ==> r == attempt(1)
    ensures attempt(0).Err? && attempt(1).Err? && attempt(2).Ok? ==> r == attempt(2)
    ensures r.Err? ==> r == Err(RetryError(attempt(2).error))
  {
    if attempt(0).Ok? then attempt(0)
    else if attempt(1).Ok? then attempt(1)
    else if attempt(2).Ok? then attempt(2)
    else Err(RetryError(attempt(2).error))
  }

  /** What `get_product_detail` gives the `n`-th attempt: the response and the version used,
      or the exception raised on the way (version lookup, bad pair). */
  type Detail = nat -> Result<(Response, ServiceVersion)>

  /** `PSClient.get_product`, as written. */
  function FetchProductAsWritten<P>(supplier: string, detail: Detail, parse: (SchemaClass, string) -> Result<P>)
    : Result<P>
  {
    Retry3((n: nat) => ProductAttemptAsWritten(supplier, detail, parse, n))
  }

  /** One attempt of `get_product` as written: the request's own exception, or the judged
      response. */
  function ProductAttemptAsWritten<P>(supplier: string, detail: Detail, parse: (SchemaClass, string) -> Result<P>, n: nat)
    : Result<P>
  {
    match detail(n)
    case Err(e) => Err(e)
    case Ok((response, version)) => ProductResponseAsWritten(supplier, response, version, parse)
  }

  /** `PSClient.get_product`, with the version passed on as it is. */
  function FetchProduct<P>(supplier: string, detail: Detail, parse: (SchemaClass, string) -> Result<P>)
    : Result<P>
  {
    Retry3((n: nat) => ProductAttempt(supplier, detail, parse, n))
  }

  /** A 200 response is never parsed as written: `fromstr` of a full version value raises. */
  lemma ProductResponseAsWrittenRaises<P>(supplier: string, response: Response, version: ServiceVersion,
                                          parse: (SchemaClass, string) -> Result<P>)
    requires response.status == 200
    ensures ProductResponseAsWritten(supplier, response, version, parse).Err?
    ensures ProductResponseAsWritten(supplier, response, version, parse).error.ValueError?
  {
    FromStrOfValueFails(version);
  }

  /** Every attempt of `get_product` as written raises. */
  lemma AttemptAsWrittenRaises<P>(supplier: string, detail: Detail, parse: (SchemaClass, string) -> Result<P>, n: nat)
    ensures ProductAttemptAsWritten(supplier, detail, parse, n).Err?
  {
    if detail(n).Ok? {
      var (response, version) := detail(n).value;
      if response.status == 200 {
        ProductResponseAsWrittenRaises(supplier, response, version, parse);
      }
    }
  }

  /** One attempt of `get_product` with the version passed on. */
  function ProductAttempt<P>(supplier: string, detail: Detail, parse: (SchemaClass, string) -> Result<P>, n: nat)
    : Result<P>
  {
    match detail(n)
    case Err(e) => Err(e)
    case Ok((response, version)) => ProductResponse(supplier, response, version, parse)
  }

  /** As written, `get_product` never returns: every attempt raises, and so does the retry. */
  lemma FetchProductAsWrittenAlwaysRaises<P>(supplier: string, detail: Detail, parse: (SchemaClass, string) -> Result<P>)
    ensures FetchProductAsWritten(supplier, detail, parse).Err?
  {
    AttemptAsWrittenRaises(supplier, detail, parse, 0);
    AttemptAsWrittenRaises(supplier, detail, parse, 1);
    AttemptAsWrittenRaises(supplier, detail, parse, 2);
    var attempt := (n: nat) => ProductAttemptAsWritten(supplier, detail, parse, n);
    assert attempt(0).Err? && attempt(1).Err? && attempt(2).Err?;
  }

  /** With the version passed on, a first attempt that gets a 200 response for a product
      version returns the parsed body. */
  lemma FetchProductParses<P>(supplier: string, detail: Detail, parse: (SchemaClass, string) -> Result<P>,
                            response: Response, v: ServiceVersion)
    requires detail(0) == Ok((response, v)) && response.status == 200
    requires (v == V_1_0_0 || v == V_2_0_0) && parse(ProductClass(v).value, response.content).Ok?
    ensures FetchProduct(supplier, detail, parse) == parse(ProductClass(v).value, response.content)
  {
  }

  // ---------------------------------------------------------------- get_products

  /** The ids to walk: the sellable ids, narrowed to the allow-list when one is given. */
  function AllowListed(sellable: seq<string>, productIds: seq<string>): (r: seq<string>)
    ensures productIds == [] ==> r == sellable
    ensures productIds != [] ==> forall x :: x in r <==> x in sellable && x in productIds
    ensures productIds != [] ==>
      forall x :: multiset(r)[x] == if x in productIds then multiset(sellable)[x] else 0
    ensures IsSubsequence(r, sellable)
  {
    if productIds == [] then SubsequenceReflexive(sellable); sellable else KeepListed(sellable, productIds)
  }

  /** `[p for p in all if p in allowed]`. */
  function KeepListed(all: seq<string>, allowed: seq<string>): (r: seq<string>)
    ensures forall x :: x in r <==> x in all && x in allowed
    ensures forall x :: multiset(r)[x] == if x in allowed then multiset(all)[x] else 0
    ensures IsSubsequence(r, all)
  {
    if all == [] then []
    else
      var rest := KeepListed(all[1..], allowed);
      assert all == [all[0]] + all[1..];
      if all[0] in allowed then
        assert ([all[0]] + rest)[1..] == rest;
        [all[0]] + rest
      else
        SubsequenceOfTail(rest, all);
        rest
  }

  /** `a` is `b` with some elements left out, the others in their order. */
  predicate IsSubsequence<T(==)>(a: seq<T>, b: seq<T>)
    decreases |b|
  {
    if a == [] then true
    else if b == [] then false
    else if a[0] == b[0] then IsSubsequence(a[1..], b[1..])
    else IsSubsequence(a, b[1..])
  }

  /** A subsequence of the tail is a subsequence of the whole. */
  lemma {:induction false} SubsequenceOfTail<T>(a: seq<T>, b: seq<T>)
    requires b != [] && IsSubsequence(a, b[1..])
    ensures IsSubsequence(a, b)
    decreases |b|, 0
  {
    if a != [] && a[0] == b[0] {
      SubsequenceDropHead(a, b[1..]);
    }
  }

  /** Leaving out the first element keeps a subsequence one. */
  lemma {:induction false} SubsequenceDropHead<T>(a: seq<T>, c: seq<T>)
    requires a != [] && IsSubsequence(a, c)
    ensures IsSubsequence(a[1..], c)
    decreases |c|, 1
  {
    if a[1..] != [] {
      if a[0] == c[0] {
        SubsequenceOfTail(a[1..], c);
      } else {
        SubsequenceDropHead(a, c[1..]);
        SubsequenceOfTail(a[1..], c);
      }
    }
  }

  /** Every sequence is a subsequence of itself. */
  lemma {:induction false} SubsequenceReflexive<T>(a: seq<T>)
    ensures IsSubsequence(a, a)
    decreases |a|
  {
    if a != [] {
      SubsequenceReflexive(a[1..]);
    }
  }

  /** The loop body at index `ix` gets past `if ix >= max_products: break`. */
  predicate PastBreak(ix: int, maxProducts: int) {
    !(ix >= maxProducts)
  }

  /** How many ids `get_products` fetches: it stops at index `max_products`. */
  function AttemptBound(n: nat, maxProducts: int): (k: nat)
    ensures k <= n
    ensures forall ix :: 0 <= ix < n ==> (ix < k <==> PastBreak(ix, maxProducts))
    ensures maxProducts <= 0 ==> k == 0
  {
    if maxProducts <= 0 then 0 else if n < maxProducts then n else maxProducts
  }

  /** A fetched product is yielded when it has data and, if a category is given, belongs to
      the category and sub-category. */
  predicate Keep<P>(p: P, filter: CategoryFilter, hasData: P -> bool, belongsTo: (P, string, Option<string>) -> bool) {
    hasData(p) && (!Given(filter.category) || belongsTo(p, filter.category.value, filter.subCategory))
  }

  /** What the walk yields from the ids `ids`, all of them fetched: the kept products, in
      order; an id whose fetch raised yields nothing. */
  function Walked<P>(ids: seq<string>, fetch: string -> Result<P>, filter: CategoryFilter,
                     hasData: P -> bool, belongsTo: (P, string, Option<string>) -> bool): seq<P>
    decreases |ids|
  {
    if ids == [] then []
    else
      var last := fetch(ids[|ids| - 1]);
      Walked(ids[..|ids| - 1], fetch, filter, hasData, belongsTo)
        + (if last.Ok? && Keep(last.value, filter, hasData, belongsTo) then [last.value] else [])
  }

  /** `PSClient.get_products`, with the sellable ids and `get_product` given: the category
      filter is parsed, the ids are narrowed to the allow-list, and the first `max_products`
      of them are fetched one by one; a fetch that raises is passed over. */
  method GetProducts<P>(category: Option<string>, sellable: seq<string>, productIds: seq<string>, maxProducts: int,
                        fetch: string -> Result<P>, hasData: P -> bool,
                        belongsTo: (P, string, Option<string>) -> bool)
    returns (out: seq<P>, attempts: nat)
    ensures attempts == AttemptBound(|AllowListed(sellable, productIds)|, maxProducts)
    ensures out == Walked(AllowListed(sellable, productIds)[..attempts], fetch, GenCategories(category), hasData, belongsTo)
  {
    var filter := GenCategories(category);
    var all := AllowListed(sellable, productIds);
    out := [];
    attempts := 0;
    while attempts < |all|
      invariant attempts <= |all|
      invariant attempts <= AttemptBound(|all|, maxProducts)
      invariant out == Walked(all[..attempts], fetch, filter, hasData, belongsTo)
    {
      if attempts >= maxProducts {
        break;
      }
      var product := fetch(all[attempts]);
      if product.Ok? && Keep(product.value, filter, hasData, belongsTo) {
        out := out + [product.value];
      }
      assert all[..attempts + 1][..attempts] == all[..attempts];
      attempts := attempts + 1;
    }
  }

  /** The walk yields exactly the kept products among the fetched ids. */
  lemma {:induction false} WalkedIsKept<P>(ids: seq<string>, fetch: string -> Result<P>, filter: CategoryFilter,
                                           hasData: P -> bool, belongsTo: (P, string, Option<string>) -> bool, p: P)
    ensures p in Walked(ids, fetch, filter, hasData, belongsTo) <==>
      exists k :: 0 <= k < |ids| && fetch(ids[k]) == Ok(p) && Keep(p, filter, hasData, belongsTo)
    decreases |ids|
  {
    if ids != [] {
      var init := ids[..|ids| - 1];
      WalkedIsKept(init, fetch, filter, hasData, belongsTo, p);
      if exists k :: 0 <= k < |init| && fetch(init[k]) == Ok(p) && Keep(p, filter, hasData, belongsTo) {
        var k :| 0 <= k < |init| && fetch(init[k]) == Ok(p) && Keep(p, filter, hasData, belongsTo);
        assert ids[k] == init[k];
      }
      if exists k :: 0 <= k < |ids| && fetch(ids[k]) == Ok(p) && Keep(p, filter, hasData, belongsTo) {
        var k :| 0 <= k < |ids| && fetch(ids[k]) == Ok(p) && Keep(p, filter, hasData, belongsTo);
        if k < |init| { assert init[k] == ids[k]; }
      }
    }
  }

  /** Without a category, every product with data is yielded. */
  lemma NoCategoryKeepsAllWithData<P>(p: P, filter: CategoryFilter, hasData: P -> bool,
                                      belongsTo: (P, string, Option<string>) -> bool)
    requires !Given(filter.category)
    ensures Keep(p, filter, hasData, belongsTo) <==> hasData(p)
  {
  }

  /** A walk whose every fetch raises yields nothing, however long it is. */
  lemma {:induction false} WalkOfFailuresIsEmpty<P>(ids: seq<string>, fetch: string -> Result<P>, filter: CategoryFilter,
                                                    hasData: P -> bool, belongsTo: (P, string, Option<string>) -> bool)
    requires forall k :: 0 <= k < |ids| ==> fetch(ids[k]).Err?
    ensures Walked(ids, fetch, filter, hasData, belongsTo) == []
    decreases |ids|
  {
    if ids != [] {
      var init := ids[..|ids| - 1];
      assert forall k :: 0 <= k < |init| ==> init[k] == ids[k];
      WalkOfFailuresIsEmpty(init, fetch, filter, hasData, belongsTo);
    }
  }

  /** As written, `get_products` yields nothing at all: each `get_product` raises and the walk
      passes over it. */
  lemma GetProductsAsWrittenYieldsNothing<P>(supplier: string, ids: seq<string>, details: string -> Detail,
                                             parse: (SchemaClass, string) -> Result<P>, filter: CategoryFilter,
                                             hasData: P -> bool, belongsTo: (P, string, Option<string>) -> bool)
    ensures Walked(ids, (id: string) => FetchProductAsWritten(supplier, details(id), parse), filter, hasData, belongsTo) == []
  {
    var fetch := (id: string) => FetchProductAsWritten(supplier, details(id), parse);
    forall k | 0 <= k < |ids| ensures fetch(ids[k]).Err? {
      FetchProductAsWrittenAlwaysRaises(supplier, details(ids[k]), parse);
    }
    WalkOfFailuresIsEmpty(ids, fetch, filter, hasData, belongsTo);
  }
}

=== FILE: domain.dfy ===
/** The enumerations of the supplier API namespace and the version-keyed schema lookups. */
module Domain {
  import opened Wrappers

  // ---------------------------------------------------------------- ServiceCode

  /** A service of the supplier API; the constructor names are the enum member names. */
  datatype ServiceCode = INV | PPC | Product | INVC | ODRSTAT | OSN | MED | PO | PDC | SPCC

  /** The member name (`ServiceCode.X.name`), which is also what `str()` prints. */
  function ServiceName(s: ServiceCode): string {
    match s
    case INV => "INV"
    case PPC => "PPC"
    case Product => "Product"
    case INVC => "INVC"
    case ODRSTAT => "ODRSTAT"
    case OSN => "OSN"
    case MED => "MED"
    case PO => "PO"
    case PDC => "PDC"
    case SPCC => "SPCC"
  }

  /** The member value: a human-readable description of the service. */
  function ServiceDescription(s: ServiceCode): string {
    match s
    case INV => "Inventory"
    case PPC => "Price and Configuration"
    case Product => "Product Data"
    case INVC => "Invoice"
    case ODRSTAT => "Order Status"
    case OSN => "Order Shipment Notification"
    case MED => "Media Content"
    case PO => "Purchase Order"
    case PDC => "Product Compliance"
    case SPCC => "Supplier Price and Configuration"
  }

  /** `str(s)`: the overridden `__str__` prints the member name, never the description. */
  function ServiceStr(s: ServiceCode): (r: string)
    ensures r != ServiceDescription(s)
    ensures forall t: ServiceCode :: ServiceName(t) == r <==> t == s
  {
    ServiceName(s)
  }

  /** The services whose latest version the resolver keeps, in the order it scans them. */
  const OrderedServices: seq<string> := ["Product", "MED", "PPC", "INV", "PO", "ODRSTAT", "OSN", "INVC"]

  /** The scan list names eight distinct services: every member except PDC and SPCC. */
  lemma OrderedServicesAreTheListedMembers()
    ensures |OrderedServices| == 8
    ensures forall i, j :: 0 <= i < j < |OrderedServices| ==> OrderedServices[i] != OrderedServices[j]
    ensures forall s: ServiceCode :: ServiceName(s) in OrderedServices <==> s != PDC && s != SPCC
    ensures forall n :: n in OrderedServices ==> exists s: ServiceCode :: ServiceName(s) == n
  {
    assert ServiceName(Product) == OrderedServices[0];
    assert ServiceName(MED) == OrderedServices[1];
    assert ServiceName(PPC) == OrderedServices[2];
    assert ServiceName(INV) == OrderedServices[3];
    assert ServiceName(PO) == OrderedServices[4];
    assert ServiceName(ODRSTAT) == OrderedServices[5];
    assert ServiceName(OSN) == OrderedServices[6];
    assert ServiceName(INVC) == OrderedServices[7];
  }

  // ---------------------------------------------------------------- ServiceVersion

  datatype ServiceVersion = V_1_0_0 | V_1_1_0 | V_1_2_1 | V_2_0_0

  function VersionValue(v: ServiceVersion): string {
    match v
    case V_1_0_0 => "v1.0.0"
    case V_1_1_0 => "v1.1.0"
    case V_1_2_1 => "v1.2.1"
    case V_2_0_0 => "v2.0.0"
  }

  /** `ServiceVersion(s)`: the member whose value is `s`, or a ValueError. */
  function VersionByValue(s: string): (r: Result<ServiceVersion>)
    ensures r.Ok? ==> VersionValue(r.value) == s
    ensures r.Err? ==> forall v: ServiceVersion :: VersionValue(v) != s
    ensures r.Err? ==> r.error.ValueError?
  {
    if s == "v1.0.0" then Ok(V_1_0_0)
    else if s == "v1.1.0" then Ok(V_1_1_0)
    else if s == "v1.2.1" then Ok(V_1_2_1)
    else if s == "v2.0.0" then Ok(V_2_0_0)
    else Err(ValueError("'" + s + "' is not a valid ServiceVersion"))
  }

  /** `ServiceVersion.fromstr`: a falsy (empty) string gives None; any other string is
      prefixed with `v` and must then be the value of one of the four members. */
  function FromStr(version: string): (r: Result<Option<ServiceVersion>>)
    ensures version == "" ==> r == Ok(None)
    ensures version != "" && r.Ok? ==> r.value.Some? && VersionValue(r.value.value) == "v" + version
    ensures version != "" && r.Err? ==> forall v: ServiceVersion :: VersionValue(v) != "v" + version
    ensures r.Err? ==> r.error.ValueError?
  {
    if version == "" then Ok(None)
    else
      var v :- VersionByValue("v" + version);
      Ok(Some(v))
  }

  /** Dropping the leading `v` of a member's value and passing the rest to `fromstr` gives
      that member back. */
  lemma FromStrRoundTrip(v: ServiceVersion)
    ensures FromStr(VersionValue(v)[1..]) == Ok(Some(v))
  {
    assert "v" + VersionValue(v)[1..] == VersionValue(v);
  }

  /** Passing a member's full value (already starting with `v`) to `fromstr` builds `vv…`,
      which is no member: the call always fails. */
  lemma FromStrOfValueFails(v: ServiceVersion)
    ensures FromStr(VersionValue(v)).Err?
  {
    var s := "v" + VersionValue(v);
    assert s[1] == 'v';
    forall w: ServiceVersion ensures VersionValue(w) != s {
      assert VersionValue(w)[1] != 'v';
    }
  }

  // ---------------------------------------------------------------- Environment, Function

  datatype Environment = PROD | STAGING

  function EnvironmentValue(e: Environment): string {
    match e
    case PROD => "PROD"
    case STAGING => "STAGING"
  }

  /** An operation of a service; the values are the camel-case names used by the API. */
  datatype Function =
    | GetSellables | GetProduct | GetProductCloseout | GetProductDateModified
    | GetMediaContent | GetMediaDateModified
    | GetAvailableLocations | GetDecorationColors | GetFobPoints | GetAvailableCharges
    | GetConfigurationAndPricing
    | GetFilterValues | GetInventoryLevels
    | GetSupportedOrderTypes | SendPO
    | GetOrderStatusTypes | GetOrderStatusDetails | GetOrderStatus | GetServiceMethods | GetIssue
    | GetOrderShipmentNotification
    | GetInvoices | GetVoidedInvoices

  function FunctionValue(f: Function): string {
    match f
    case GetSellables => "getSellables"
    case GetProduct => "getProduct"
    case GetProductCloseout => "getProductCloseout"
    case GetProductDateModified => "getProductDateModified"
    case GetMediaContent => "getMediaContent"
    case GetMediaDateModified => "getMediaDateModified"
    case GetAvailableLocations => "getAvailableLocations"
    case GetDecorationColors => "getDecorationColors"
    case GetFobPoints => "getFobPoints"
    case GetAvailableCharges => "getAvailableCharges"
    case GetConfigurationAndPricing => "getConfigurationAndPricing"
    case GetFilterValues => "getFilterValues"
    case GetInventoryLevels => "getInventoryLevels"
    case GetSupportedOrderTypes => "getSupportedOrderTypes"
    case SendPO => "sendPO"
    case GetOrderStatusTypes => "getOrderStatusTypes"
    case GetOrderStatusDetails => "getOrderStatusDetails"
    case GetOrderStatus => "getOrderStatus"
    case GetServiceMethods => "getServiceMethods"
    case GetIssue => "getIssue"
    case GetOrderShipmentNotification => "getOrderShipmentNotification"
    case GetInvoices => "getInvoices"
    case GetVoidedInvoices => "getVoidedInvoices"
  }

  // ---------------------------------------------------------------- response schemas

  /** The response schema classes; each parses exactly one API version. */
  datatype SchemaClass = ProductV100 | ProductV200 | InventoryV121 | InventoryV200 {
    predicate IsProductSchema() { ProductV100? || ProductV200? }
    function ParsesVersion(): ServiceVersion {
      match this
      case ProductV100 => V_1_0_0
      case ProductV200 => V_2_0_0
      case InventoryV121 => V_1_2_1
      case InventoryV200 => V_2_0_0
    }
  }

  /** `get_product_class`: a dict indexed by the version value; a missing key raises. */
  function ProductClass(v: ServiceVersion): (r: Result<SchemaClass>)
    ensures r.Ok? <==> v == V_1_0_0 || v == V_2_0_0
    ensures r.Ok? ==> r.value.IsProductSchema() && r.value.ParsesVersion() == v
    ensures r.Err? ==> r.error == KeyError(VersionValue(v))
  {
    match v
    case V_1_0_0 => Ok(ProductV100)
    case V_2_0_0 => Ok(ProductV200)
    case _ => Err(KeyError(VersionValue(v)))
  }

  /** `get_inventory_class`: only v1.2.1 and v2.0.0 have an inventory schema. */
  function InventoryClass(v: ServiceVersion): (r: Result<SchemaClass>)
    ensures r.Ok? <==> v == V_1_2_1 || v == V_2_0_0
    ensures r.Ok? ==> !r.value.IsProductSchema() && r.value.ParsesVersion() == v
    ensures r.Err? ==> r.error == KeyError(VersionValue(v))
  {
    match v
    case V_1_2_1 => Ok(InventoryV121)
    case V_2_0_0 => Ok(InventoryV200)
    case _ => Err(KeyError(VersionValue(v)))
  }
}

=== FILE: endpoints.dfy ===
/** Building the request for one supplier-API call: the path segment of a (service, function)
    pair, the URL, and the query parameters. */
module Endpoints {
  import opened Wrappers
  import opened Text
  import opened Domain

  /** The translation table, with its keys exactly as written: three of them carry upper-case
      letters or a doubled space. */
  const SegmentTable: map<string, string> := map[
    "product - getsellables" := "sellables",
    "product - getproduct" := "products",
    "product - getproductcloseout" := "products-closeout",
    "product - getproductdatemodified" := "products-modified-since",
    "med - getmediacontent" := "medias",
    "med - getmediadatemodified" := "media-modified-since",
    "ppc - getavailablelocations" := "available-locations",
    "ppc - getdecorationcolors" := "decoration-colors",
    "ppc - getfobpoints" := "fob-points",
    "ppc - getavailablecharges" := "available-charges",
    "ppc - getconfigurationandpricing" := "pricing-and-configuration",
    "inv - getfiltervalues" := "inventory/filter-values",
    "inv - getinventorylevels" := "inventory",
    "po - getsupportedordertypes" := "supported-order-types",
    "po - sendpo" := "purchase-orders",
    "odrstat - getorderstatustypes" := "order-status-types",
    "odrstat - getorderstatusdetails" := "order-status-details",
    "odrstat - getorderstatus" := "order-status",
    "odrstat - getServiceMethods" := "service-methods",
    "odrstat - getIssue" := "issues",
    "osn - getordershipmentnotification" := "order-shipment-notifications",
    "invc - getinvoices" := "invoices",
    "invc -  getvoidedinvoices" := "voided-invoices"
  ]

  /** The key looked up for a pair: lower-cased member name and function value, joined by
      a single-spaced dash. */
  function LookupKey(s: ServiceCode, f: Function): string {
    Lower(ServiceName(s)) + " - " + Lower(FunctionValue(f))
  }

  /** The path segment each pair is meant to reach: an independent, enum-keyed statement of the
      table's intent (every table row, read as the pair it names). */
  function IntendedSegment(s: ServiceCode, f: Function): Option<string> {
    match (s, f)
    case (Product, GetSellables) => Some("sellables")
    case (Product, GetProduct) => Some("products")
    case (Product, GetProductCloseout) => Some("products-closeout")
    case (Product, GetProductDateModified) => Some("products-modified-since")
    case (MED, GetMediaContent) => Some("medias")
    case (MED, GetMediaDateModified) => Some("media-modified-since")
    case (PPC, GetAvailableLocations) => Some("available-locations")
    case (PPC, GetDecorationColors) => Some("decoration-colors")
    case (PPC, GetFobPoints) => Some("fob-points")
    case (PPC, GetAvailableCharges) => Some("available-charges")
    case (PPC, GetConfigurationAndPricing) => Some("pricing-and-configuration")
    case (INV, GetFilterValues) => Some("inventory/filter-values")
    case (INV, GetInventoryLevels) => Some("inventory")
    case (PO, GetSupportedOrderTypes) => Some("supported-order-types")
    case (PO, SendPO) => Some("purchase-orders")
    case (ODRSTAT, GetOrderStatusTypes) => Some("order-status-types")
    case (ODRSTAT, GetOrderStatusDetails) => Some("order-status-details")
    case (ODRSTAT, GetOrderStatus) => Some("order-status")
    case (ODRSTAT, GetServiceMethods) => Some("service-methods")
    case (ODRSTAT, GetIssue) => Some("issues")
    case (OSN, GetOrderShipmentNotification) => Some("order-shipment-notifications")
    case (INVC, GetInvoices) => Some("invoices")
    case (INVC, GetVoidedInvoices) => Some("voided-invoices")
    case _ => None
  }

  /** The three pairs whose table keys can never be produced by `LookupKey`. */
  predicate UnreachableRow(s: ServiceCode, f: Function) {
    (s, f) == (ODRSTAT, GetServiceMethods) || (s, f) == (ODRSTAT, GetIssue) || (s, f) == (INVC, GetVoidedInvoices)
  }

  const SellablesSegment := "sellables"
  const SellableIdsSegment := "sellable-product-ids"

  /** What the ids-only flag is meant to do to a segment: swap sellables for sellable ids. */
  function IdsOnly(segment: string, ids: bool): string {
    if ids && segment == SellablesSegment then SellableIdsSegment else segment
  }

  /** The table lookup in `APIHelper.gen_srv_func`: a pair whose key is missing is a
      `ValueError` naming the lowered pair. */
  function SegmentLookup(s: ServiceCode, f: Function): (r: Result<string>)
    ensures r.Ok? <==> LookupKey(s, f) in SegmentTable
    ensures r.Ok? ==> r.value == SegmentTable[LookupKey(s, f)]
    ensures r.Err? ==> r.error == ValueError("Invalid service/function combination: "
      + Lower(ServiceName(s)) + "/" + Lower(FunctionValue(f)))
  {
    var key := LookupKey(s, f);
    if key !in SegmentTable then
      Err(ValueError("Invalid service/function combination: " + Lower(ServiceName(s)) + "/" + Lower(FunctionValue(f))))
    else
      Ok(SegmentTable[key])
  }

  /** `APIHelper.gen_srv_func`: the looked-up segment, with `sellables` replaced by
      `sellable-product-ids` when only product ids are wanted. */
  function GenSrvFunc(s: ServiceCode, f: Function, productIdsOnly: bool): (r: Result<string>)
    ensures r.Err? <==> SegmentLookup(s, f).Err?
    ensures r.Err? ==> r == SegmentLookup(s, f)
    ensures r.Ok? && !productIdsOnly ==> r.value == SegmentLookup(s, f).value
  {
    var segment := SegmentLookup(s, f);
    if segment.Err? then segment
    else Ok(if productIdsOnly then ReplaceAll(segment.value, SellablesSegment, SellableIdsSegment) else segment.value)
  }

  // ---------------------------------------------------------------- properties

  /** The lookup key never holds an upper-case letter. */
  lemma LookupKeyHasNoUpper(s: ServiceCode, f: Function)
    ensures NoUpper(LookupKey(s, f))
  {
    LowerIsLowerCase(ServiceName(s));
    LowerIsLowerCase(FunctionValue(f));
  }

  /** The two table keys with upper-case letters are never looked up. */
  lemma UpperCaseKeysUnreachable(s: ServiceCode, f: Function)
    ensures LookupKey(s, f) != "odrstat - getServiceMethods"
    ensures LookupKey(s, f) != "odrstat - getIssue"
  {
    LookupKeyHasNoUpper(s, f);
    assert IsUpper("odrstat - getServiceMethods"[13]);
    assert IsUpper("odrstat - getIssue"[13]);
  }

  /** The table key with a doubled space is never looked up. */
  lemma DoubleSpacedKeyUnreachable(s: ServiceCode, f: Function)
    ensures LookupKey(s, f) != "invc -  getvoidedinvoices"
  {
    KeyShape(s, f);
    NotDoubleSpaced(LookupKey(s, f), |Lower(ServiceName(s))|);
  }

  /** The ids-only rewrite does what it is meant to: it swaps the sellables segment and
      leaves a segment in which `sellables` does not occur alone. */
  lemma RewriteMeantOnly(s: ServiceCode, f: Function, segment: string, ids: bool)
    requires SegmentLookup(s, f) == Ok(segment)
    requires segment == SellablesSegment || !HasInfix(segment, SellablesSegment)
    ensures GenSrvFunc(s, f, ids) == Ok(IdsOnly(segment, ids))
  {
    if ids {
      if segment == SellablesSegment {
        ReplaceWhole(SellablesSegment, SellableIdsSegment);
      } else {
        ReplaceAbsent(segment, SellablesSegment, SellableIdsSegment);
      }
    }
  }

  /** Every pair the table is meant to serve, apart from the three unreachable ones, finds
      its segment; `sellables` occurs in no such segment but its own. */
  lemma IntendedSegmentsFound(s: ServiceCode, f: Function)
    requires IntendedSegment(s, f).Some? && !UnreachableRow(s, f)
    ensures SegmentLookup(s, f) == Ok(IntendedSegment(s, f).value)
    ensures var segment := IntendedSegment(s, f).value;
      segment == SellablesSegment || !HasInfix(segment, SellablesSegment)
  {
    match s
    case Product => ProductSegmentsFound(f);
    case MED => MEDSegmentsFound(f);
    case PPC => PPCSegmentsFound(f);
    case INV => INVSegmentsFound(f);
    case PO => POSegmentsFound(f);
    case ODRSTAT => ODRSTATSegmentsFound(f);
    case OSN => OSNSegmentsFound(f);
    case INVC => INVCSegmentsFound(f);
    case PDC =>
    case SPCC =>
  }

  /** Every pair the table is meant to serve, apart from the three unreachable ones, resolves
      to its segment; the ids-only flag changes the sellables segment and no other. */
  lemma IntendedRowsResolve(s: ServiceCode, f: Function, ids: bool)
    requires IntendedSegment(s, f).Some? && !UnreachableRow(s, f)
    ensures GenSrvFunc(s, f, ids) == Ok(IdsOnly(IntendedSegment(s, f).value, ids))
  {
    IntendedSegmentsFound(s, f);
    RewriteMeantOnly(s, f, IntendedSegment(s, f).value, ids);
  }

  /** `ODRSTAT`/`getServiceMethods` looks up an all-lower-case key the table does not hold. */
  lemma ServiceMethodsRaises()
    ensures SegmentLookup(ODRSTAT, GetServiceMethods).Err?
  {
    LowerServiceName(ODRSTAT);
    LowerGetServiceMethods();
    JoinODRSTATGetServiceMethods();
    var key := LookupKey(ODRSTAT, GetServiceMethods);
    assert key[0] == 'o' && key[13] == 's';
  }

  /** `ODRSTAT`/`getIssue` looks up an all-lower-case key the table does not hold. */
  lemma IssueRaises()
    ensures SegmentLookup(ODRSTAT, GetIssue).Err?
  {
    LowerServiceName(ODRSTAT);
    LowerGetIssue();
    JoinODRSTATGetIssue();
    var key := LookupKey(ODRSTAT, GetIssue);
    assert key[0] == 'o' && key[13] == 'i';
  }

  /** `INVC`/`getVoidedInvoices` looks up a single-spaced key the table does not hold. */
  lemma VoidedInvoicesRaises()
    ensures SegmentLookup(INVC, GetVoidedInvoices).Err?
  {
    LowerServiceName(INVC);
    LowerGetVoidedInvoices();
    JoinINVCGetVoidedInvoices();
    var key := LookupKey(INVC, GetVoidedInvoices);
    assert key[0] == 'i' && key[3] == 'c';
  }

  /** The three rows whose keys are written differently from every lookup key are dead: their
      pairs raise `ValueError` whatever the ids-only flag. */
  lemma UnreachableRowsRaise(s: ServiceCode, f: Function, ids: bool)
    requires UnreachableRow(s, f)
    ensures GenSrvFunc(s, f, ids).Err? && GenSrvFunc(s, f, ids).error.ValueError?
  {
    if (s, f) == (ODRSTAT, GetServiceMethods) {
      ServiceMethodsRaises();
    } else if (s, f) == (ODRSTAT, GetIssue) {
      IssueRaises();
    } else {
      VoidedInvoicesRaises();
    }
  }

  /** `PDC` and `SPCC` have no row, so they raise for every function. */
  lemma UnlistedServicesRaise(s: ServiceCode, f: Function, ids: bool)
    requires s == PDC || s == SPCC
    ensures GenSrvFunc(s, f, ids).Err? && GenSrvFunc(s, f, ids).error.ValueError?
  {
    if s == PDC {
      PdcKeyAbsent(f);
    } else {
      SpccKeyAbsent(f);
    }
  }

  // ---------------------------------------------------------------- helpers
  // Scaffolding for the properties above, stating nothing of its own. Lowering a literal,
  // joining literals and looking a literal up in the table are each proved in a lemma of
  // their own, one row at a time: together they outgrow the solver.

  lemma LowerServiceName(s: ServiceCode)
    ensures Lower(ServiceName(s)) == match s
      case INV => "inv" case PPC => "ppc" case Product => "product" case INVC => "invc"
      case ODRSTAT => "odrstat" case OSN => "osn" case MED => "med" case PO => "po"
      case PDC => "pdc" case SPCC => "spcc"
  {
  }

  /** Every function value starts with a lower-case `g` or `s`. */
  lemma FunctionValueStart(f: Function)
    ensures |FunctionValue(f)| > 0
    ensures FunctionValue(f)[0] == 'g' || FunctionValue(f)[0] == 's'
  {
  }

  lemma ServiceNameLength(s: ServiceCode)
    ensures 2 <= |ServiceName(s)| <= 7
  {
  }

  /** Around the dash of `a - b`. */
  lemma JoinedAround(a: string, b: string)
    requires b != []
    ensures (a + " - " + b)[|a| + 1] == '-' && (a + " - " + b)[|a| + 3] == b[0]
  {
  }

  /** In every lookup key the dash follows the lowered name, and the character after the
      single-spaced dash starts the function value, never a space. */
  lemma KeyShape(s: ServiceCode, f: Function)
    ensures var n := |Lower(ServiceName(s))|;
      2 <= n <= 7 && n + 3 < |LookupKey(s, f)| && LookupKey(s, f)[n + 1] == '-' && LookupKey(s, f)[n + 3] != ' '
  {
    ServiceNameLength(s);
    FunctionValueStart(f);
    var fv := Lower(FunctionValue(f));
    JoinedAround(Lower(ServiceName(s)), fv);
    assert fv[0] == LowerChar(FunctionValue(f)[0]);
  }

  /** A key whose dash, somewhere in positions 3 to 8, is followed by a space and then
      something else is not the key with the doubled space: that key's only dash there is
      followed by two spaces. */
  lemma NotDoubleSpaced(key: string, n: int)
    requires 2 <= n <= 7 && n + 3 < |key| && key[n + 1] == '-' && key[n + 3] != ' '
    ensures key != "invc -  getvoidedinvoices"
  {
    var target := "invc -  getvoidedinvoices";
    if key == target {
    }
  }

  lemma LowerGetSellables()
    ensures Lower(FunctionValue(GetSellables)) == "getsellables"
  {
  }

  lemma LowerGetProduct()
    ensures Lower(FunctionValue(GetProduct)) == "getproduct"
  {
  }

  lemma LowerGetProductCloseout()
    ensures Lower(FunctionValue(GetProductCloseout)) == "getproductcloseout"
  {
  }

  lemma LowerGetProductDateModified()
    ensures Lower(FunctionValue(GetProductDateModified)) == "getproductdatemodified"
  {
  }

  lemma LowerGetMediaContent()
    ensures Lower(FunctionValue(GetMediaContent)) == "getmediacontent"
  {
  }

  lemma LowerGetMediaDateModified()
    ensures Lower(FunctionValue(GetMediaDateModified)) == "getmediadatemodified"
  {
  }

  lemma LowerGetAvailableLocations()
    ensures Lower(FunctionValue(GetAvailableLocations)) == "getavailablelocations"
  {
  }

  lemma LowerGetDecorationColors()
    ensures Lower(FunctionValue(GetDecorationColors)) == "getdecorationcolors"
  {
  }

  lemma LowerGetFobPoints()
    ensures Lower(FunctionValue(GetFobPoints)) == "getfobpoints"
  {
  }

  lemma LowerGetAvailableCharges()
    ensures Lower(FunctionValue(GetAvailableCharges)) == "getavailablecharges"
  {
  }

  lemma LowerGetConfigurationAndPricing()
    ensures Lower(FunctionValue(GetConfigurationAndPricing)) == "getconfigurationandpricing"
  {
  }

  lemma LowerGetFilterValues()
    ensures Lower(FunctionValue(GetFilterValues)) == "getfiltervalues"
  {
  }

  lemma LowerGetInventoryLevels()
    ensures Lower(FunctionValue(GetInventoryLevels)) == "getinventorylevels"
  {
  }

  lemma LowerGetSupportedOrderTypes()
    ensures Lower(FunctionValue(GetSupportedOrderTypes)) == "getsupportedordertypes"
  {
  }

  lemma LowerSendPO()
    ensures Lower(FunctionValue(SendPO)) == "sendpo"
  {
  }

  lemma LowerGetOrderStatusTypes()
    ensures Lower(FunctionValue(GetOrderStatusTypes)) == "getorderstatustypes"
  {
  }

  lemma LowerGetOrderStatusDetails()
    ensures Lower(FunctionValue(GetOrderStatusDetails)) == "getorderstatusdetails"
  {
  }

  lemma LowerGetOrderStatus()
    ensures Lower(FunctionValue(GetOrderStatus)) == "getorderstatus"
  {
  }

  lemma LowerGetServiceMethods()
    ensures Lower(FunctionValue(GetServiceMethods)) == "getservicemethods"
  {
  }

  lemma LowerGetIssue()
    ensures Lower(FunctionValue(GetIssue)) == "getissue"
  {
  }

  lemma LowerGetOrderShipmentNotification()
    ensures Lower(FunctionValue(GetOrderShipmentNotification)) == "getordershipmentnotification"
  {
  }

  lemma LowerGetInvoices()
    ensures Lower(FunctionValue(GetInvoices)) == "getinvoices"
  {
  }

  lemma LowerGetVoidedInvoices()
    ensures Lower(FunctionValue(GetVoidedInvoices)) == "getvoidedinvoices"
  {
  }

  lemma JoinProductGetSellables()
    ensures "product" + " - " + "getsellables" == "product - getsellables"
  {
  }

  lemma KeyProductGetSellables()
    ensures LookupKey(Product, GetSellables) == "product - getsellables"
  {
    LowerServiceName(Product);
    LowerGetSellables();
    JoinProductGetSellables();
  }

  lemma RowProductGetSellables()
    ensures SegmentLookup(Product, GetSellables) == Ok("sellables")
  {
    KeyProductGetSellables();
  }

  lemma JoinProductGetProduct()
    ensures "product" + " - " + "getproduct" == "product - getproduct"
  {
  }

  lemma KeyProductGetProduct()
    ensures LookupKey(Product, GetProduct) == "product - getproduct"
  {
    LowerServiceName(Product);
    LowerGetProduct();
    JoinProductGetProduct();
  }

  lemma RowProductGetProduct()
    ensures SegmentLookup(Product, GetProduct) == Ok("products")
  {
    KeyProductGetProduct();
  }

  lemma JoinProductGetProductCloseout()
    ensures "product" + " - " + "getproductcloseout" == "product - getproductcloseout"
  {
  }

  lemma KeyProductGetProductCloseout()
    ensures LookupKey(Product, GetProductCloseout) == "product - getproductcloseout"
  {
    LowerServiceName(Product);
    LowerGetProductCloseout();
    JoinProductGetProductCloseout();
  }

  lemma RowProductGetProductCloseout()
    ensures SegmentLookup(Product, GetProductCloseout) == Ok("products-closeout")
  {
    KeyProductGetProductCloseout();
  }

  lemma JoinProductGetProductDateModified()
    ensures "product" + " - " + "getproductdatemodified" == "product - getproductdatemodified"
  {
  }

  lemma KeyProductGetProductDateModified()
    ensures LookupKey(Product, GetProductDateModified) == "product - getproductdatemodified"
  {
    LowerServiceName(Product);
    LowerGetProductDateModified();
    JoinProductGetProductDateModified();
  }

  lemma RowProductGetProductDateModified()
    ensures SegmentLookup(Product, GetProductDateModified) == Ok("products-modified-since")
  {
    KeyProductGetProductDateModified();
  }

  lemma JoinMEDGetMediaContent()
    ensures "med" + " - " + "getmediacontent" == "med - getmediacontent"
  {
  }

  lemma KeyMEDGetMediaContent()
    ensures LookupKey(MED, GetMediaContent) == "med - getmediacontent"
  {
    LowerServiceName(MED);
    LowerGetMediaContent();
    JoinMEDGetMediaContent();
  }

  lemma RowMEDGetMediaContent()
    ensures SegmentLookup(MED, GetMediaContent) == Ok("medias")
  {
    KeyMEDGetMediaContent();
  }

  lemma JoinMEDGetMediaDateModified()
    ensures "med" + " - " + "getmediadatemodified" == "med - getmediadatemodified"
  {
  }

  lemma KeyMEDGetMediaDateModified()
    ensures LookupKey(MED, GetMediaDateModified) == "med - getmediadatemodified"
  {
    LowerServiceName(MED);
    LowerGetMediaDateModified();
    JoinMEDGetMediaDateModified();
  }

  lemma RowMEDGetMediaDateModified()
    ensures SegmentLookup(MED, GetMediaDateModified) == Ok("media-modified-since")
  {
    KeyMEDGetMediaDateModified();
  }

  lemma JoinPPCGetAvailableLocations()
    ensures "ppc" + " - " + "getavailablelocations" == "ppc - getavailablelocations"
  {
  }

  lemma KeyPPCGetAvailableLocations()
    ensures LookupKey(PPC, GetAvailableLocations) == "ppc - getavailablelocations"
  {
    LowerServiceName(PPC);
    LowerGetAvailableLocations();
    JoinPPCGetAvailableLocations();
  }

  lemma RowPPCGetAvailableLocations()
    ensures SegmentLookup(PPC, GetAvailableLocations) == Ok("available-locations")
  {
    KeyPPCGetAvailableLocations();
  }

  lemma JoinPPCGetDecorationColors()
    ensures "ppc" + " - " + "getdecorationcolors" == "ppc - getdecorationcolors"
  {
  }

  lemma KeyPPCGetDecorationColors()
    ensures LookupKey(PPC, GetDecorationColors) == "ppc - getdecorationcolors"
  {
    LowerServiceName(PPC);
    LowerGetDecorationColors();
    JoinPPCGetDecorationColors();
  }

  lemma RowPPCGetDecorationColors()
    ensures SegmentLookup(PPC, GetDecorationColors) == Ok("decoration-colors")
  {
    KeyPPCGetDecorationColors();
  }

  lemma JoinPPCGetFobPoints()
    ensures "ppc" + " - " + "getfobpoints" == "ppc - getfobpoints"
  {
  }

  lemma KeyPPCGetFobPoints()
    ensures LookupKey(PPC, GetFobPoints) == "ppc - getfobpoints"
  {
    LowerServiceName(PPC);
    LowerGetFobPoints();
    JoinPPCGetFobPoints();
  }

  lemma RowPPCGetFobPoints()
    ensures SegmentLookup(PPC, GetFobPoints) == Ok("fob-points")
  {
    KeyPPCGetFobPoints();
  }

  lemma JoinPPCGetAvailableCharges()
    ensures "ppc" + " - " + "getavailablecharges" == "ppc - getavailablecharges"
  {
  }

  lemma KeyPPCGetAvailableCharges()
    ensures LookupKey(PPC, GetAvailableCharges) == "ppc - getavailablecharges"
  {
    LowerServiceName(PPC);
    LowerGetAvailableCharges();
    JoinPPCGetAvailableCharges();
  }

  lemma RowPPCGetAvailableCharges()
    ensures SegmentLookup(PPC, GetAvailableCharges) == Ok("available-charges")
  {
    KeyPPCGetAvailableCharges();
  }

  lemma JoinPPCGetConfigurationAndPricing()
    ensures "ppc" + " - " + "getconfigurationandpricing" == "ppc - getconfigurationandpricing"
  {
  }

  lemma KeyPPCGetConfigurationAndPricing()
    ensures LookupKey(PPC, GetConfigurationAndPricing) == "ppc - getconfigurationandpricing"
  {
    LowerServiceName(PPC);
    LowerGetConfigurationAndPricing();
    JoinPPCGetConfigurationAndPricing();
  }

  lemma RowPPCGetConfigurationAndPricing()
    ensures SegmentLookup(PPC, GetConfigurationAndPricing) == Ok("pricing-and-configuration")
  {
    KeyPPCGetConfigurationAndPricing();
  }

  lemma JoinINVGetFilterValues()
    ensures "inv" + " - " + "getfiltervalues" == "inv - getfiltervalues"
  {
  }

  lemma KeyINVGetFilterValues()
    ensures LookupKey(INV, GetFilterValues) == "inv - getfiltervalues"
  {
    LowerServiceName(INV);
    LowerGetFilterValues();
    JoinINVGetFilterValues();
  }

  lemma RowINVGetFilterValues()
    ensures SegmentLookup(INV, GetFilterValues) == Ok("inventory/filter-values")
  {
    KeyINVGetFilterValues();
  }

  lemma JoinINVGetInventoryLevels()
    ensures "inv" + " - " + "getinventorylevels" == "inv - getinventorylevels"
  {
  }

  lemma KeyINVGetInventoryLevels()
    ensures LookupKey(INV, GetInventoryLevels) == "inv - getinventorylevels"
  {
    LowerServiceName(INV);
    LowerGetInventoryLevels();
    JoinINVGetInventoryLevels();
  }

  lemma RowINVGetInventoryLevels()
    ensures SegmentLookup(INV, GetInventoryLevels) == Ok("inventory")
  {
    KeyINVGetInventoryLevels();
  }

  lemma JoinPOGetSupportedOrderTypes()
    ensures "po" + " - " + "getsupportedordertypes" == "po - getsupportedordertypes"
  {
  }

  lemma KeyPOGetSupportedOrderTypes()
    ensures LookupKey(PO, GetSupportedOrderTypes) == "po - getsupportedordertypes"
  {
    LowerServiceName(PO);
    LowerGetSupportedOrderTypes();
    JoinPOGetSupportedOrderTypes();
  }

  lemma RowPOGetSupportedOrderTypes()
    ensures SegmentLookup(PO, GetSupportedOrderTypes) == Ok("supported-order-types")
  {
    KeyPOGetSupportedOrderTypes();
  }

  lemma JoinPOSendPO()
    ensures "po" + " - " + "sendpo" == "po - sendpo"
  {
  }

  lemma KeyPOSendPO()
    ensures LookupKey(PO, SendPO) == "po - sendpo"
  {
    LowerServiceName(PO);
    LowerSendPO();
    JoinPOSendPO();
  }

  lemma RowPOSendPO()
    ensures SegmentLookup(PO, SendPO) == Ok("purchase-orders")
  {
    KeyPOSendPO();
  }

  lemma JoinODRSTATGetOrderStatusTypes()
    ensures "odrstat" + " - " + "getorderstatustypes" == "odrstat - getorderstatustypes"
  {
  }

  lemma KeyODRSTATGetOrderStatusTypes()
    ensures LookupKey(ODRSTAT, GetOrderStatusTypes) == "odrstat - getorderstatustypes"
  {
    LowerServiceName(ODRSTAT);
    LowerGetOrderStatusTypes();
    JoinODRSTATGetOrderStatusTypes();
  }

  lemma RowODRSTATGetOrderStatusTypes()
    ensures SegmentLookup(ODRSTAT, GetOrderStatusTypes) == Ok("order-status-types")
  {
    KeyODRSTATGetOrderStatusTypes();
  }

  lemma JoinODRSTATGetOrderStatusDetails()
    ensures "odrstat" + " - " + "getorderstatusdetails" == "odrstat - getorderstatusdetails"
  {
  }

  lemma KeyODRSTATGetOrderStatusDetails()
    ensures LookupKey(ODRSTAT, GetOrderStatusDetails) == "odrstat - getorderstatusdetails"
  {
    LowerServiceName(ODRSTAT);
    LowerGetOrderStatusDetails();
    JoinODRSTATGetOrderStatusDetails();
  }

  lemma RowODRSTATGetOrderStatusDetails()
    ensures SegmentLookup(ODRSTAT, GetOrderStatusDetails) == Ok("order-status-details")
  {
    KeyODRSTATGetOrderStatusDetails();
  }

  lemma JoinODRSTATGetOrderStatus()
    ensures "odrstat" + " - " + "getorderstatus" == "odrstat - getorderstatus"
  {
  }

  lemma KeyODRSTATGetOrderStatus()
    ensures LookupKey(ODRSTAT, GetOrderStatus) == "odrstat - getorderstatus"
  {
    LowerServiceName(ODRSTAT);
    LowerGetOrderStatus();
    JoinODRSTATGetOrderStatus();
  }

  lemma RowODRSTATGetOrderStatus()
    ensures SegmentLookup(ODRSTAT, GetOrderStatus) == Ok("order-status")
  {
    KeyODRSTATGetOrderStatus();
  }

  lemma JoinOSNGetOrderShipmentNotification()
    ensures "osn" + " - " + "getordershipmentnotification" == "osn - getordershipmentnotification"
  {
  }

  lemma KeyOSNGetOrderShipmentNotification()
    ensures LookupKey(OSN, GetOrderShipmentNotification) == "osn - getordershipmentnotification"
  {
    LowerServiceName(OSN);
    LowerGetOrderShipmentNotification();
    JoinOSNGetOrderShipmentNotification();
  }

  lemma RowOSNGetOrderShipmentNotification()
    ensures SegmentLookup(OSN, GetOrderShipmentNotification) == Ok("order-shipment-notifications")
  {
    KeyOSNGetOrderShipmentNotification();
  }

  lemma JoinINVCGetInvoices()
    ensures "invc" + " - " + "getinvoices" == "invc - getinvoices"
  {
  }

  lemma KeyINVCGetInvoices()
    ensures LookupKey(INVC, GetInvoices) == "invc - getinvoices"
  {
    LowerServiceName(INVC);
    LowerGetInvoices();
    JoinINVCGetInvoices();
  }

  lemma RowINVCGetInvoices()
    ensures SegmentLookup(INVC, GetInvoices) == Ok("invoices")
  {
    KeyINVCGetInvoices();
  }

  lemma ProductSegmentsFound(f: Function)
    requires IntendedSegment(Product, f).Some? && !UnreachableRow(Product, f)
    ensures SegmentLookup(Product, f) == Ok(IntendedSegment(Product, f).value)
    ensures var segment := IntendedSegment(Product, f).value;
      segment == SellablesSegment || !HasInfix(segment, SellablesSegment)
  {
    match f
    case GetSellables => RowProductGetSellables();
    case GetProduct => RowProductGetProduct(); MissingCharNoInfix("products", SellablesSegment, 'b');
    case GetProductCloseout => RowProductGetProductCloseout(); MissingCharNoInfix("products-closeout", SellablesSegment, 'b');
    case GetProductDateModified => RowProductGetProductDateModified(); MissingCharNoInfix("products-modified-since", SellablesSegment, 'b');
  }

  lemma MEDSegmentsFound(f: Function)
    requires IntendedSegment(MED, f).Some? && !UnreachableRow(MED, f)
    ensures SegmentLookup(MED, f) == Ok(IntendedSegment(MED, f).value)
    ensures var segment := IntendedSegment(MED, f).value;
      segment == SellablesSegment || !HasInfix(segment, SellablesSegment)
  {
    match f
    case GetMediaContent => RowMEDGetMediaContent(); MissingCharNoInfix("medias", SellablesSegment, 'b');
    case GetMediaDateModified => RowMEDGetMediaDateModified(); MissingCharNoInfix("media-modified-since", SellablesSegment, 'b');
  }

  lemma PPCSegmentsFound(f: Function)
    requires IntendedSegment(PPC, f).Some? && !UnreachableRow(PPC, f)
    ensures SegmentLookup(PPC, f) == Ok(IntendedSegment(PPC, f).value)
    ensures var segment := IntendedSegment(PPC, f).value;
      segment == SellablesSegment || !HasInfix(segment, SellablesSegment)
  {
    match f
    case GetAvailableLocations => RowPPCGetAvailableLocations(); HeadAbsentNoInfix("available-locations", SellablesSegment);
    case GetDecorationColors => RowPPCGetDecorationColors(); MissingCharNoInfix("decoration-colors", SellablesSegment, 'b');
    case GetFobPoints => RowPPCGetFobPoints(); HeadAbsentNoInfix("fob-points", SellablesSegment);
    case GetAvailableCharges => RowPPCGetAvailableCharges(); HeadAbsentNoInfix("available-charges", SellablesSegment);
    case GetConfigurationAndPricing => RowPPCGetConfigurationAndPricing(); MissingCharNoInfix("pricing-and-configuration", SellablesSegment, 'b');
  }

  lemma INVSegmentsFound(f: Function)
    requires IntendedSegment(INV, f).Some? && !UnreachableRow(INV, f)
    ensures SegmentLookup(INV, f) == Ok(IntendedSegment(INV, f).value)
    ensures var segment := IntendedSegment(INV, f).value;
      segment == SellablesSegment || !HasInfix(segment, SellablesSegment)
  {
    match f
    case GetFilterValues => RowINVGetFilterValues(); MissingCharNoInfix("inventory/filter-values", SellablesSegment, 'b');
    case GetInventoryLevels => RowINVGetInventoryLevels(); MissingCharNoInfix("inventory", SellablesSegment, 'b');
  }

  lemma POSegmentsFound(f: Function)
    requires IntendedSegment(PO, f).Some? && !UnreachableRow(PO, f)
    ensures SegmentLookup(PO, f) == Ok(IntendedSegment(PO, f).value)
    ensures var segment := IntendedSegment(PO, f).value;
      segment == SellablesSegment || !HasInfix(segment, SellablesSegment)
  {
    match f
    case GetSupportedOrderTypes => RowPOGetSupportedOrderTypes(); MissingCharNoInfix("supported-order-types", SellablesSegment, 'b');
    case SendPO => RowPOSendPO(); MissingCharNoInfix("purchase-orders", SellablesSegment, 'b');
  }

  lemma ODRSTATSegmentsFound(f: Function)
    requires IntendedSegment(ODRSTAT, f).Some? && !UnreachableRow(ODRSTAT, f)
    ensures SegmentLookup(ODRSTAT, f) == Ok(IntendedSegment(ODRSTAT, f).value)
    ensures var segment := IntendedSegment(ODRSTAT, f).value;
      segment == SellablesSegment || !HasInfix(segment, SellablesSegment)
  {
    match f
    case GetOrderStatusTypes => RowODRSTATGetOrderStatusTypes(); MissingCharNoInfix("order-status-types", SellablesSegment, 'b');
    case GetOrderStatusDetails => RowODRSTATGetOrderStatusDetails(); MissingCharNoInfix("order-status-details", SellablesSegment, 'b');
    case GetOrderStatus => RowODRSTATGetOrderStatus(); MissingCharNoInfix("order-status", SellablesSegment, 'b');
  }

  lemma OSNSegmentsFound(f: Function)
    requires IntendedSegment(OSN, f).Some? && !UnreachableRow(OSN, f)
    ensures SegmentLookup(OSN, f) == Ok(IntendedSegment(OSN, f).value)
    ensures var segment := IntendedSegment(OSN, f).value;
      segment == SellablesSegment || !HasInfix(segment, SellablesSegment)
  {
    match f
    case GetOrderShipmentNotification => RowOSNGetOrderShipmentNotification(); MissingCharNoInfix("order-shipment-notifications", SellablesSegment, 'b');
  }

  lemma INVCSegmentsFound(f: Function)
    requires IntendedSegment(INVC, f).Some? && !UnreachableRow(INVC, f)
    ensures SegmentLookup(INVC, f) == Ok(IntendedSegment(INVC, f).value)
    ensures var segment := IntendedSegment(INVC, f).value;
      segment == SellablesSegment || !HasInfix(segment, SellablesSegment)
  {
    match f
    case GetInvoices => RowINVCGetInvoices(); MissingCharNoInfix("invoices", SellablesSegment, 'b');
  }

  lemma JoinODRSTATGetServiceMethods()
    ensures "odrstat" + " - " + "getservicemethods" == "odrstat - getservicemethods"
  {
  }

  lemma JoinODRSTATGetIssue()
    ensures "odrstat" + " - " + "getissue" == "odrstat - getissue"
  {
  }

  lemma JoinINVCGetVoidedInvoices()
    ensures "invc" + " - " + "getvoidedinvoices" == "invc - getvoidedinvoices"
  {
  }

  /** No key in the table starts with `pd`. */
  lemma NoKeyStartsPd(key: string)
    requires |key| >= 2 && key[0] == 'p' && key[1] == 'd'
    ensures key !in SegmentTable
  {
  }

  /** No key in the table starts with `s`. */
  lemma NoKeyStartsS(key: string)
    requires |key| >= 1 && key[0] == 's'
    ensures key !in SegmentTable
  {
  }

  /** The lookup key starts with the lowered member name. */
  lemma LookupKeyStarts(s: ServiceCode, f: Function, i: nat)
    requires i < |Lower(ServiceName(s))|
    ensures i < |LookupKey(s, f)| && LookupKey(s, f)[i] == Lower(ServiceName(s))[i]
  {
  }

  lemma PdcKeyAbsent(f: Function)
    ensures LookupKey(PDC, f) !in SegmentTable
  {
    LowerServiceName(PDC);
    LookupKeyStarts(PDC, f, 0);
    LookupKeyStarts(PDC, f, 1);
    NoKeyStartsPd(LookupKey(PDC, f));
  }

  lemma SpccKeyAbsent(f: Function)
    ensures LookupKey(SPCC, f) !in SegmentTable
  {
    LowerServiceName(SPCC);
    LookupKeyStarts(SPCC, f, 0);
    NoKeyStartsS(LookupKey(SPCC, f));
  }
}

=== FILE: inventory.dfy ===
/** `InventoryService`: the sweep that copies each supplier product's available inventory to
    the shop, one inventory level per variant, at the shop's first location. */
module Inventory {
  import opened Wrappers
  import opened Client
  import opened Categories
  import opened Products

  // ---------------------------------------------------------------- quantities

  /** The available value a levels response reports for a part: `None`, an integer or a real. */
  datatype PyNum = NumNone | NumInt(i: int) | NumReal(r: real)

  predicate NumTruthy(x: PyNum) {
    match x
    case NumNone => false
    case NumInt(i) => i != 0
    case NumReal(r) => r != 0.0
  }

  /** Python's `int()` of a real: toward zero. */
  function Truncate(r: real): (q: int)
    ensures r >= 0.0 ==> q as real <= r < q as real + 1.0
    ensures r < 0.0 ==> q as real - 1.0 < r <= q as real
  {
    if r >= 0.0 then r.Floor else -((-r).Floor)
  }

  /** `int(available) if available else 0`. */
  function Quantity(available: PyNum): (q: int)
    ensures !NumTruthy(available) ==> q == 0
    ensures available.NumInt? ==> q == available.i
    ensures available.NumReal? ==> q == Truncate(available.r)
  {
    if !NumTruthy(available) then 0
    else match available
      case NumInt(i) => i
      case NumReal(r) => Truncate(r)
  }

  /** The quantity written never exceeds the reported amount in size and keeps its sign:
      a fraction of a unit is dropped, toward zero. */
  lemma QuantityTowardZero(available: PyNum)
    requires available.NumReal?
    ensures var q := Quantity(available) as real;
      var r := available.r;
      (r >= 0.0 ==> 0.0 <= q <= r && r - q < 1.0) && (r < 0.0 ==> r <= q <= 0.0 && q - r < 1.0)
  {
  }

  // ---------------------------------------------------------------- one variant

  /** `InventoryLevel.set(location_id, inventory_item_id, available)`. */
  datatype Write = Write(locationId: int, inventoryItemId: int, available: int)

  /** What the model needs of the shop's inventory call and the supplier's levels response:
      `setLevel(n, w)` is the `n`-th attempt at a write, `isOk` and `available` the response's
      `is_ok` and `get_available_inventory`. */
  datatype Oracles<!L> = Oracles(
    lookup: ShopifyProduct -> Result<(Option<string>, Option<string>)>,
    inventory: (string, string) -> Result<L>,
    isOk: L -> bool,
    available: (L, Option<string>) -> Result<PyNum>,
    setLevel: (nat, Write) -> Result<()>)

  /** `variant.attributes['sku']` once the key is known to be there: the part id passed to
      `get_available_inventory`, `None` for a null sku. */
  function PartId(sku: Sku): Option<string>
    requires !sku.SkuAbsent?
  {
    if sku.Sku? then Some(sku.value) else None
  }

  /** One attempt of `update_variant_inventory`: the `sku` attribute (a KeyError when the
      variant's attributes have no such key), its available quantity, then the write. */
  function VariantAttempt<L>(o: Oracles<L>, levels: L, locationId: int, variant: Variant, n: nat): (r: Result<Write>)
    ensures r.Ok? ==>
      !variant.sku.SkuAbsent? && o.available(levels, PartId(variant.sku)).Ok?
      && r.value == Write(locationId, variant.inventoryItemId, Quantity(o.available(levels, PartId(variant.sku)).value))
    ensures !variant.sku.SkuAbsent? && o.available(levels, PartId(variant.sku)).Ok? ==>
      var w := Write(locationId, variant.inventoryItemId, Quantity(o.available(levels, PartId(variant.sku)).value));
      (r.Ok? <==> o.setLevel(n, w).Ok?)
    ensures variant.sku.SkuAbsent? ==> r == Err(KeyError("sku"))
  {
    if variant.sku.SkuAbsent? then Err(KeyError("sku"))
    else
      var available :- o.available(levels, PartId(variant.sku));
      var write := Write(locationId, variant.inventoryItemId, Quantity(available));
      var _ :- o.setLevel(n, write);
      Ok(write)
  }

  /** `update_variant_inventory`, retried three times. */
  function UpdateVariant<L>(o: Oracles<L>, levels: L, locationId: int, variant: Variant): (r: Result<Write>)
    ensures r.Ok? ==> r.value.locationId == locationId && r.value.inventoryItemId == variant.inventoryItemId
    ensures r.Ok? ==>
      !variant.sku.SkuAbsent? && o.available(levels, PartId(variant.sku)).Ok?
      && r.value.available == Quantity(o.available(levels, PartId(variant.sku)).value)
    ensures variant.sku.SkuAbsent? ==> r == Err(RetryError(KeyError("sku")))
    ensures !variant.sku.SkuAbsent? && o.available(levels, PartId(variant.sku)).Ok? ==>
      var w := Write(locationId, variant.inventoryItemId, Quantity(o.available(levels, PartId(variant.sku)).value));
      (r.Ok? <==> o.setLevel(0, w).Ok? || o.setLevel(1, w).Ok? || o.setLevel(2, w).Ok?)
    ensures !variant.sku.SkuAbsent? && o.available(levels, PartId(variant.sku)).Err? ==>
      r == Err(RetryError(o.available(levels, PartId(variant.sku)).error))
    ensures r.Err? ==> r == Err(RetryError(VariantAttempt(o, levels, locationId, variant, 2).error))
  {
    var attempt := (n: nat) => VariantAttempt(o, levels, locationId, variant, n);
    var r := Retry3(attempt);
    assert r.Ok? ==> r == attempt(0) || r == attempt(1) || r == attempt(2);
    r
  }

  /** A null `sku` raises nothing of its own: `None` is the part asked for, and the write goes
      through once the shop accepts it. */
  lemma NullSkuIsLookedUp<L>(o: Oracles<L>, levels: L, locationId: int, variant: Variant, x: PyNum)
    requires variant.sku == SkuNull && o.available(levels, None) == Ok(x)
    requires o.setLevel(0, Write(locationId, variant.inventoryItemId, Quantity(x))).Ok?
    ensures UpdateVariant(o, levels, locationId, variant) == Ok(Write(locationId, variant.inventoryItemId, Quantity(x)))
  {
    assert VariantAttempt(o, levels, locationId, variant, 0).Ok?;
  }

  /** The variant loop: a write per variant in order, until one raises; the writes already
      made stay made. */
  function VariantWrites<L>(o: Oracles<L>, levels: L, locationId: int, variants: seq<Variant>)
    : (r: (seq<Write>, Option<Error>))
    ensures |r.0| <= |variants|
    ensures forall i :: 0 <= i < |r.0| ==> UpdateVariant(o, levels, locationId, variants[i]) == Ok(r.0[i])
    ensures r.1.None? <==> |r.0| == |variants|
    ensures r.1.Some? ==> UpdateVariant(o, levels, locationId, variants[|r.0|]) == Err(r.1.value)
    decreases |variants|
  {
    if variants == [] then ([], None)
    else
      match UpdateVariant(o, levels, locationId, variants[0])
      case Err(e) => ([], Some(e))
      case Ok(w) =>
        var rest := VariantWrites(o, levels, locationId, variants[1..]);
        ([w] + rest.0, rest.1)
  }

  // ---------------------------------------------------------------- one product

  /** What one product does to the sweep: abort it (the id lookup raised outside the try),
      pass (no supplier code or product id), or fetch the levels and make some writes, with
      the exception that ended the try, if any. */
  datatype Effect = Abort(error: Error) | Pass | Done(fetched: (string, string), writes: seq<Write>, failure: Option<Error>)

  /** One turn of the loop of `_update_inventory`. */
  function ProductEffect<L>(o: Oracles<L>, locationId: int, product: ShopifyProduct): (e: Effect)
    ensures o.lookup(product).Err? <==> e.Abort?
    ensures e.Pass? <==> o.lookup(product).Ok? && !(Given(o.lookup(product).value.0) && Given(o.lookup(product).value.1))
    ensures e.Done? ==> e.fetched == (o.lookup(product).value.0.value, o.lookup(product).value.1.value)
    ensures e.Done? && (o.inventory(e.fetched.0, e.fetched.1).Err? || !o.isOk(o.inventory(e.fetched.0, e.fetched.1).value))
      ==> e.writes == []
    ensures e.Done? && o.inventory(e.fetched.0, e.fetched.1).Err? ==>
      e.failure == Some(o.inventory(e.fetched.0, e.fetched.1).error)
    ensures e.Done? && o.inventory(e.fetched.0, e.fetched.1).Ok? && !o.isOk(o.inventory(e.fetched.0, e.fetched.1).value)
      ==> e.failure.None?
    ensures e.Done? && o.inventory(e.fetched.0, e.fetched.1).Ok? && o.isOk(o.inventory(e.fetched.0, e.fetched.1).value)
      ==> (e.writes, e.failure) == VariantWrites(o, o.inventory(e.fetched.0, e.fetched.1).value, locationId, product.variants)
  {
    match o.lookup(product)
    case Err(err) => Abort(err)
    case Ok((supplierCode, productId)) =>
      if !Given(supplierCode) || !Given(productId) then Pass
      else
        var key := (supplierCode.value, productId.value);
        match o.inventory(key.0, key.1)
        case Err(err) => Done(key, [], Some(err))
        case Ok(levels) =>
          if !o.isOk(levels) then Done(key, [], None)
          else
            var (writes, failure) := VariantWrites(o, levels, locationId, product.variants);
            Done(key, writes, failure)
  }

  // ---------------------------------------------------------------- the sweep

  /** What a sweep did: the writes made, the `(supplier, product id)` pairs whose levels were
      asked for, the ids of the products whose try raised, and the exception that ended the
      sweep, if one did. */
  datatype Sweep = Sweep(writes: seq<Write>, fetched: seq<(string, string)>, failed: seq<int>, error: Option<Error>)

  /** The outcome of `a` followed by that of `b` (meaningful when `a` did not end the sweep). */
  function Then(a: Sweep, b: Sweep): Sweep {
    Sweep(a.writes + b.writes, a.fetched + b.fetched, a.failed + b.failed, b.error)
  }

  const Empty: Sweep := Sweep([], [], [], None)

  /** The sweep over `products`, product by product. */
  function SweepOf<L>(o: Oracles<L>, locationId: int, products: seq<ShopifyProduct>): Sweep
    decreases |products|
  {
    if products == [] then Empty
    else
      var here := Single(products[0], ProductEffect(o, locationId, products[0]));
      if here.error.Some? then here else Then(here, SweepOf(o, locationId, products[1..]))
  }

  /** One product's part of the sweep. */
  function Single(product: ShopifyProduct, e: Effect): Sweep {
    match e
    case Abort(error) => Sweep([], [], [], Some(error))
    case Pass => Empty
    case Done(key, writes, failure) => Sweep(writes, [key], if failure.Some? then [product.id] else [], None)
  }

  /** `get_default_location_id`: the first location; none is an IndexError. */
  function DefaultLocation(locations: seq<int>): (r: Result<int>)
    ensures r.Ok? <==> locations != []
    ensures r.Ok? ==> r.value == locations[0]
    ensures r.Err? ==> r.error == IndexError
  {
    if locations == [] then Err(IndexError) else Ok(locations[0])
  }

  /** `update_inventory` from the locations on: the location is read once, then the sweep runs
      over the products `get_all_shopify_products()` yields, with its default limit, reading
      the shop through `find`; an exception the generator raises after its last page ends the
      sweep there. */
  method UpdateInventory<L>(o: Oracles<L>, locations: seq<int>, find: (nat, int, int) -> Result<seq<ShopifyProduct>>,
                            fuel: nat)
    returns (r: Result<Sweep>)
    ensures locations == [] ==> r == Err(IndexError)
    ensures locations != [] ==>
      r.Ok? && r.value == SweepWithPaging(o, locations[0], AllShopifyProducts(find, DefaultLimit, fuel))
  {
    var locationId :- DefaultLocation(locations);
    var walk := AllShopifyProducts(find, DefaultLimit, fuel);
    var products := Concat(walk.pages);
    var done := Empty;
    var i := 0;
    while i < |products|
      invariant 0 <= i <= |products|
      invariant done.error.None?
      invariant SweepOf(o, locationId, products) == Then(done, SweepOf(o, locationId, products[i..]))
      decreases |products| - i
    {
      var here := Single(products[i], ProductEffect(o, locationId, products[i]));
      SweepStep(o, locationId, products, i);
      if here.error.Some? {
        return Ok(Then(done, here));
      }
      ThenAssociative(done, here, SweepOf(o, locationId, products[i + 1..]));
      done := Then(done, here);
      i := i + 1;
    }
    assert products[i..] == [];
    return Ok(Then(done, Sweep([], [], [], walk.error)));
  }

  /** The sweep from index `i` is product `i`'s part, then, unless it aborted, the rest. */
  lemma SweepStep<L>(o: Oracles<L>, locationId: int, products: seq<ShopifyProduct>, i: nat)
    requires i < |products|
    ensures var here := Single(products[i], ProductEffect(o, locationId, products[i]));
      SweepOf(o, locationId, products[i..]) ==
        if here.error.Some? then here else Then(here, SweepOf(o, locationId, products[i + 1..]))
  {
    assert products[i..][1..] == products[i + 1..];
  }

  lemma ThenAssociative(a: Sweep, b: Sweep, c: Sweep)
    ensures Then(Then(a, b), c) == Then(a, Then(b, c))
  {
  }

  /** The sweep over what the walk yielded, ended by the walk's own exception if it raised. */
  function SweepWithPaging<L>(o: Oracles<L>, locationId: int, walk: Walk): Sweep {
    var s := SweepOf(o, locationId, Concat(walk.pages));
    if s.error.Some? then s else s.(error := walk.error)
  }

  // ---------------------------------------------------------------- properties

  /** Sweeping `a + b` is sweeping `a`, then, unless `a` was aborted, sweeping `b`: what one
      product's try raises has no effect on any other product. */
  lemma {:induction false} SweepAppend<L>(o: Oracles<L>, locationId: int, a: seq<ShopifyProduct>, b: seq<ShopifyProduct>)
    ensures SweepOf(o, locationId, a + b) ==
      if SweepOf(o, locationId, a).error.Some? then SweepOf(o, locationId, a)
      else Then(SweepOf(o, locationId, a), SweepOf(o, locationId, b))
    decreases |a|
  {
    if a == [] {
      assert a + b == b;
    } else {
      var here := Single(a[0], ProductEffect(o, locationId, a[0]));
      SweepStep(o, locationId, a + b, 0);
      assert (a + b)[0] == a[0];
      assert (a + b)[0..] == a + b;
      assert (a + b)[1..] == a[1..] + b;
      SweepStep(o, locationId, a, 0);
      assert a[0..] == a;
      if here.error.None? {
        SweepAppend(o, locationId, a[1..], b);
        ThenAssociative(here, SweepOf(o, locationId, a[1..]), SweepOf(o, locationId, b));
      }
    }
  }

  /** A product without a supplier code or product id is passed over: no levels are asked
      for, nothing is written, and the sweep goes on. */
  lemma MissingCodesSkipped<L>(o: Oracles<L>, locationId: int, product: ShopifyProduct, rest: seq<ShopifyProduct>)
    requires o.lookup(product).Ok?
    requires !Given(o.lookup(product).value.0) || !Given(o.lookup(product).value.1)
    ensures SweepOf(o, locationId, [product] + rest) == SweepOf(o, locationId, rest)
  {
    assert ([product] + rest)[1..] == rest;
  }

  /** A failing levels request, or any exception in the variant loop, skips only its own
      product: the sweep goes on with the next one. */
  lemma FailureSkipsOnlyItsProduct<L>(o: Oracles<L>, locationId: int, before: seq<ShopifyProduct>,
                                      product: ShopifyProduct, after: seq<ShopifyProduct>)
    requires SweepOf(o, locationId, before).error.None?
    requires ProductEffect(o, locationId, product).Done?
    ensures var e := ProductEffect(o, locationId, product);
      SweepOf(o, locationId, before + [product] + after) ==
        Then(SweepOf(o, locationId, before),
             Then(Sweep(e.writes, [e.fetched], if e.failure.Some? then [product.id] else [], None),
                  SweepOf(o, locationId, after)))
  {
    SweepAppend(o, locationId, before, [product] + after);
    assert before + [product] + after == before + ([product] + after);
    assert ([product] + after)[1..] == after;
  }

  /** An exception from the id lookup ends the sweep: no later product is looked at. */
  lemma LookupFailureAborts<L>(o: Oracles<L>, locationId: int, before: seq<ShopifyProduct>,
                               product: ShopifyProduct, after: seq<ShopifyProduct>)
    requires SweepOf(o, locationId, before).error.None?
    requires o.lookup(product).Err?
    ensures SweepOf(o, locationId, before + [product] + after) ==
      SweepOf(o, locationId, before).(error := Some(o.lookup(product).error))
  {
    SweepAppend(o, locationId, before, [product] + after);
    assert before + [product] + after == before + ([product] + after);
  }

  /** When the levels are fine and every variant's update succeeds, the product writes once
      per variant, in variant order, at the location, each with the variant's own inventory
      item and the quantity of its part. */
  lemma OneWritePerVariant<L>(o: Oracles<L>, locationId: int, product: ShopifyProduct, levels: L)
    requires ProductEffect(o, locationId, product).Done?
    requires o.inventory(ProductEffect(o, locationId, product).fetched.0,
                         ProductEffect(o, locationId, product).fetched.1) == Ok(levels)
    requires o.isOk(levels)
    requires forall v | v in product.variants :: UpdateVariant(o, levels, locationId, v).Ok?
    ensures var e := ProductEffect(o, locationId, product);
      e.failure.None? && |e.writes| == |product.variants|
      && forall i :: 0 <= i < |e.writes| ==>
        var v := product.variants[i];
        !v.sku.SkuAbsent? && o.available(levels, PartId(v.sku)).Ok?
        && e.writes[i] == Write(locationId, v.inventoryItemId, Quantity(o.available(levels, PartId(v.sku)).value))
  {
  }
}

=== FILE: products.dfy ===
/** `get_all_shopify_products`: the shop's products, read page by page with `since_id`. */
module Products {
  import opened Wrappers
  import opened Client

  /** A variant's `sku` attribute: missing from its attributes, present but null, or a
      string. */
  datatype Sku = SkuAbsent | SkuNull | Sku(value: string)

  /** A shop variant: its `sku` attribute and its inventory item. */
  datatype Variant = Variant(sku: Sku, inventoryItemId: int)

  /** A shop product, as far as the pagination and the inventory sweep look at it. */
  datatype ShopifyProduct = ShopifyProduct(id: int, title: string, variants: seq<Variant>)

  /** `get_shopify_products`: the shop's `Product.find(since_id, limit)`, given as `find`
      with the attempt number, retried three times. */
  function ShopifyPage(find: (nat, int, int) -> Result<seq<ShopifyProduct>>, sinceId: int, limit: int)
    : (r: Result<seq<ShopifyProduct>>)
    ensures r.Ok? <==> find(0, sinceId, limit).Ok? || find(1, sinceId, limit).Ok? || find(2, sinceId, limit).Ok?
    ensures find(0, sinceId, limit).Ok? ==> r == find(0, sinceId, limit)
    ensures find(0, sinceId, limit).Err? && find(1, sinceId, limit).Ok? ==> r == find(1, sinceId, limit)
    ensures find(0, sinceId, limit).Err? && find(1, sinceId, limit).Err? && find(2, sinceId, limit).Ok? ==>
      r == find(2, sinceId, limit)
    ensures r.Err? ==> r == Err(RetryError(find(2, sinceId, limit).error))
  {
    Retry3((n: nat) => find(n, sinceId, limit))
  }

  /** The requests of a walk and what they returned: `sinceIds[i]` was asked for and gave
      `pages[i]`; a last request that raised has no page and its exception is `error`;
      `complete` says the walk ended on a short page rather than running out of `fuel`. */
  datatype Walk = Walk(pages: seq<seq<ShopifyProduct>>, sinceIds: seq<int>, error: Option<Error>, complete: bool)

  /** The `since_id` after a page: the id of its last product, unchanged after an empty one. */
  function NextSince(page: seq<ShopifyProduct>, sinceId: int): int {
    if page == [] then sinceId else page[|page| - 1].id
  }

  /** The pages one after the other. */
  function Concat(pages: seq<seq<ShopifyProduct>>): seq<ShopifyProduct> {
    if pages == [] then [] else pages[0] + Concat(pages[1..])
  }

  /** The loop of `get_all_shopify_products` from `sinceId`, for at most `fuel` requests:
      each page is yielded, the `since_id` moves to its last product, and the loop ends after
      the first page shorter than `limit`. An exception ends the generator. */
  function Pages(page: (int, int) -> Result<seq<ShopifyProduct>>, limit: int, sinceId: int, fuel: nat): Walk
    decreases fuel
  {
    if fuel == 0 then Walk([], [], None, false)
    else
      match page(sinceId, limit)
      case Err(e) => Walk([], [sinceId], Some(e), false)
      case Ok(products) =>
        if |products| < limit then Walk([products], [sinceId], None, true)
        else
          var rest := Pages(page, limit, NextSince(products, sinceId), fuel - 1);
          Walk([products] + rest.pages, [sinceId] + rest.sinceIds, rest.error, rest.complete)
  }

  /** The shape of every walk: it starts at `sinceId`; request `i` returned page `i`; a
      request follows only a full page, from that page's last id; an exception is the last
      request's; a complete walk ends on a short page; an incomplete one without an
      exception has used all its `fuel`. */
  lemma {:induction false} PagesShape(page: (int, int) -> Result<seq<ShopifyProduct>>, limit: int, sinceId: int, fuel: nat)
    ensures var w := Pages(page, limit, sinceId, fuel);
      (fuel > 0 ==> w.sinceIds != [] && w.sinceIds[0] == sinceId)
      && |w.sinceIds| <= fuel
      && |w.sinceIds| == |w.pages| + (if w.error.Some? then 1 else 0)
      && (forall i :: 0 <= i < |w.pages| ==> page(w.sinceIds[i], limit) == Ok(w.pages[i]))
      && (forall i :: 0 <= i < |w.sinceIds| - 1 ==>
            |w.pages[i]| >= limit && w.sinceIds[i + 1] == NextSince(w.pages[i], w.sinceIds[i]))
      && (w.error.Some? ==> !w.complete && page(w.sinceIds[|w.sinceIds| - 1], limit) == Err(w.error.value))
      && (w.complete ==> w.pages != [] && |w.pages[|w.pages| - 1]| < limit)
      && (!w.complete && w.error.None? ==> |w.sinceIds| == fuel)
    decreases fuel
  {
    if fuel > 0 && page(sinceId, limit).Ok? && |page(sinceId, limit).value| >= limit {
      var products := page(sinceId, limit).value;
      var next := NextSince(products, sinceId);
      PagesShape(page, limit, next, fuel - 1);
      var rest := Pages(page, limit, next, fuel - 1);
      var w := Pages(page, limit, sinceId, fuel);
      assert w.pages == [products] + rest.pages && w.sinceIds == [sinceId] + rest.sinceIds;
      assert forall i :: 0 < i < |w.pages| ==> w.pages[i] == rest.pages[i - 1] && w.sinceIds[i] == rest.sinceIds[i - 1];
    }
  }

  /** The default `limit` of `get_all_shopify_products`. */
  const DefaultLimit: int := 200

  /** `get_all_shopify_products(limit)`: the walk from `since_id` 0, each page read through
      the retried `get_shopify_products`; the generator's exception is a RetryError. */
  function AllShopifyProducts(find: (nat, int, int) -> Result<seq<ShopifyProduct>>, limit: int, fuel: nat)
    : (w: Walk)
    ensures fuel > 0 ==> w.sinceIds != [] && w.sinceIds[0] == 0
    ensures |w.sinceIds| == |w.pages| + (if w.error.Some? then 1 else 0)
    ensures forall i :: 0 <= i < |w.pages| ==> ShopifyPage(find, w.sinceIds[i], limit) == Ok(w.pages[i])
    ensures forall i :: 0 <= i < |w.sinceIds| - 1 ==>
      |w.pages[i]| >= limit && w.sinceIds[i + 1] == NextSince(w.pages[i], w.sinceIds[i])
    ensures w.error.Some? ==> w.error.value.RetryError?
    ensures w.error.Some? ==> !w.complete && ShopifyPage(find, w.sinceIds[|w.sinceIds| - 1], limit) == Err(w.error.value)
    ensures w.complete ==> w.pages != [] && |w.pages[|w.pages| - 1]| < limit
    ensures |w.sinceIds| <= fuel
    ensures !w.complete && w.error.None? ==> |w.sinceIds| == fuel
  {
    var page := (sinceId: int, l: int) => ShopifyPage(find, sinceId, l);
    PagesShape(page, limit, 0, fuel);
    Pages(page, limit, 0, fuel)
  }

  /** With `limit <= 0` no page is ever short: the loop only ends on an exception. */
  lemma NonPositiveLimitNeverEnds(page: (int, int) -> Result<seq<ShopifyProduct>>, limit: int, sinceId: int, fuel: nat)
    requires limit <= 0
    ensures !Pages(page, limit, sinceId, fuel).complete
    ensures Pages(page, limit, sinceId, fuel).error.None? ==> |Pages(page, limit, sinceId, fuel).sinceIds| == fuel
  {
    PagesShape(page, limit, sinceId, fuel);
  }

  // ---------------------------------------------------------------- against a shop

  /** The shop's products in increasing id order, as `since_id` paging assumes. */
  predicate Increasing(shop: seq<ShopifyProduct>) {
    forall i, j :: 0 <= i < j < |shop| ==> shop[i].id < shop[j].id
  }

  /** The products after `sinceId`. */
  function Above(shop: seq<ShopifyProduct>, sinceId: int): seq<ShopifyProduct> {
    if shop == [] then []
    else if shop[0].id > sinceId then [shop[0]] + Above(shop[1..], sinceId)
    else Above(shop[1..], sinceId)
  }

  /** A shop answering `find(since_id, limit)` with the first `limit` products after
      `since_id`. */
  function ShopPage(shop: seq<ShopifyProduct>, sinceId: int, limit: int): seq<ShopifyProduct> {
    var after := Above(shop, sinceId);
    if limit <= 0 then [] else if |after| <= limit then after else after[..limit]
  }

  lemma {:induction false} AllAbove(shop: seq<ShopifyProduct>, sinceId: int)
    requires forall i :: 0 <= i < |shop| ==> shop[i].id > sinceId
    ensures Above(shop, sinceId) == shop
    decreases |shop|
  {
    if shop != [] {
      AllAbove(shop[1..], sinceId);
    }
  }

  /** In an increasing shop, the products after the `i`-th are the suffix that follows it. */
  lemma {:induction false} AboveSuffix(shop: seq<ShopifyProduct>, i: nat)
    requires Increasing(shop) && i < |shop|
    ensures Above(shop, shop[i].id) == shop[i + 1..]
    decreases |shop|
  {
    if i == 0 {
      AllAbove(shop[1..], shop[0].id);
    } else {
      assert shop[0].id < shop[i].id;
      assert Increasing(shop[1..]);
      AboveSuffix(shop[1..], i - 1);
      assert shop[1..][i - 1] == shop[i];
      assert shop[1..][i..] == shop[i + 1..];
    }
  }

  /** In an increasing shop, the products after any id are a suffix. */
  lemma {:induction false} AboveIsSuffix(shop: seq<ShopifyProduct>, sinceId: int)
    requires Increasing(shop)
    ensures exists k :: 0 <= k <= |shop| && Above(shop, sinceId) == shop[k..]
    decreases |shop|
  {
    if shop == [] {
      assert Above(shop, sinceId) == shop[0..];
    } else if shop[0].id > sinceId {
      forall i | 0 <= i < |shop| ensures shop[i].id > sinceId {
        if i > 0 { assert shop[0].id < shop[i].id; }
      }
      AllAbove(shop, sinceId);
      assert Above(shop, sinceId) == shop[0..];
    } else {
      assert Increasing(shop[1..]);
      AboveIsSuffix(shop[1..], sinceId);
      var k :| 0 <= k <= |shop[1..]| && Above(shop[1..], sinceId) == shop[1..][k..];
      assert shop[1..][k..] == shop[k + 1..];
      assert Above(shop, sinceId) == shop[k + 1..];
    }
  }

  lemma ConcatAppend(page: seq<ShopifyProduct>, pages: seq<seq<ShopifyProduct>>)
    ensures Concat([page] + pages) == page + Concat(pages)
  {
    assert ([page] + pages)[1..] == pages;
  }

  /** A full page is followed by the walk from its last id. */
  lemma PagesFull(page: (int, int) -> Result<seq<ShopifyProduct>>, limit: int, sinceId: int, fuel: nat,
                  products: seq<ShopifyProduct>)
    requires fuel > 0 && page(sinceId, limit) == Ok(products) && |products| >= limit
    ensures var rest := Pages(page, limit, NextSince(products, sinceId), fuel - 1);
      Pages(page, limit, sinceId, fuel) == Walk([products] + rest.pages, [sinceId] + rest.sinceIds, rest.error, rest.complete)
  {
  }

  /** A short page ends the walk. */
  lemma PagesShort(page: (int, int) -> Result<seq<ShopifyProduct>>, limit: int, sinceId: int, fuel: nat,
                   products: seq<ShopifyProduct>)
    requires fuel > 0 && page(sinceId, limit) == Ok(products) && |products| < limit
    ensures Pages(page, limit, sinceId, fuel) == Walk([products], [sinceId], None, true)
  {
  }

  /** The first page the shop gives after the suffix `shop[k..]`. */
  lemma ShopPageOfSuffix(shop: seq<ShopifyProduct>, limit: int, sinceId: int, k: nat)
    requires limit > 0 && k <= |shop| && Above(shop, sinceId) == shop[k..]
    ensures |shop| - k < limit ==> ShopPage(shop, sinceId, limit) == shop[k..]
    ensures |shop| - k >= limit ==> ShopPage(shop, sinceId, limit) == shop[k..k + limit]
  {
  }

  /** The requests a walk over `n` products takes: one per full page, and the final short
      one, empty when `n` is a multiple of `limit`. */
  function RequestCount(n: nat, limit: int): nat
    requires limit > 0
    decreases n
  {
    if n < limit then 1 else 1 + RequestCount(n - limit, limit)
  }

  /** `page` hands out `rest` in pages of `limit` from `sinceId` on: the first `limit`
      products, then the rest from the last id of that page. */
  predicate Serves(page: (int, int) -> Result<seq<ShopifyProduct>>, limit: int, sinceId: int, rest: seq<ShopifyProduct>)
    decreases |rest|
  {
    limit > 0 &&
    if |rest| < limit then page(sinceId, limit) == Ok(rest)
    else page(sinceId, limit) == Ok(rest[..limit]) && Serves(page, limit, rest[limit - 1].id, rest[limit..])
  }

  /** A walk over pages that hand out `rest` completes with enough requests, yields exactly
      `rest`, and asks once per full page and once more for the final short page. */
  lemma {:induction false} WalkServed(page: (int, int) -> Result<seq<ShopifyProduct>>, limit: int, sinceId: int,
                                      rest: seq<ShopifyProduct>, fuel: nat)
    requires Serves(page, limit, sinceId, rest) && fuel >= RequestCount(|rest|, limit)
    ensures var w := Pages(page, limit, sinceId, fuel);
      w.complete && Concat(w.pages) == rest && |w.sinceIds| == RequestCount(|rest|, limit)
    decreases |rest|
  {
    if |rest| < limit {
      PagesShort(page, limit, sinceId, fuel, rest);
      assert Concat([rest]) == rest + Concat([]);
    } else {
      var products := rest[..limit];
      PagesFull(page, limit, sinceId, fuel, products);
      var next := NextSince(products, sinceId);
      assert next == rest[limit - 1].id;
      WalkServed(page, limit, next, rest[limit..], fuel - 1);
      ConcatAppend(products, Pages(page, limit, next, fuel - 1).pages);
      assert products + rest[limit..] == rest;
    }
  }

  /** An increasing shop hands out, from any id, the suffix of products after it. */
  lemma {:induction false} ShopServes(shop: seq<ShopifyProduct>, page: (int, int) -> Result<seq<ShopifyProduct>>,
                                      limit: int, sinceId: int, k: nat)
    requires forall s :: page(s, limit) == Ok(ShopPage(shop, s, limit))
    requires Increasing(shop) && limit > 0 && k <= |shop|
    requires Above(shop, sinceId) == shop[k..]
    ensures Serves(page, limit, sinceId, shop[k..])
    decreases |shop| - k
  {
    ShopPageOfSuffix(shop, limit, sinceId, k);
    if |shop| - k >= limit {
      var rest := shop[k..];
      assert rest[..limit] == shop[k..k + limit];
      assert rest[limit - 1] == shop[k + limit - 1];
      assert rest[limit..] == shop[k + limit..];
      AboveSuffix(shop, k + limit - 1);
      ShopServes(shop, page, limit, rest[limit - 1].id, k + limit);
    }
  }

  /** Against an increasing shop of positive ids, `get_all_shopify_products` with a positive
      limit yields every product once, in order, with one request per full page and one for
      the final short page. */
  lemma WalkReadsWholeShop(shop: seq<ShopifyProduct>, limit: int, fuel: nat)
    requires Increasing(shop) && limit > 0 && fuel >= RequestCount(|shop|, limit)
    requires forall i :: 0 <= i < |shop| ==> shop[i].id > 0
    ensures var w := Pages((s: int, l: int) => Ok(ShopPage(shop, s, l)), limit, 0, fuel);
      w.complete && Concat(w.pages) == shop && |w.sinceIds| == RequestCount(|shop|, limit)
  {
    AllAbove(shop, 0);
    assert shop[0..] == shop;
    var page := (s: int, l: int) => Ok(ShopPage(shop, s, l));
    ShopServes(shop, page, limit, 0, 0);
    WalkServed(page, limit, 0, shop, fuel);
  }

  /** The same through `get_all_shopify_products` itself: from `since_id` 0, each page read with
      up to three attempts, where a rate-limited attempt raises and a successful one answers
      as the shop does, the whole shop is read once, in order, and nothing raises. */
  lemma AllProductsReadWholeShop(shop: seq<ShopifyProduct>, find: (nat, int, int) -> Result<seq<ShopifyProduct>>,
                                 limit: int, fuel: nat)
    requires Increasing(shop) && limit > 0 && fuel >= RequestCount(|shop|, limit)
    requires forall i :: 0 <= i < |shop| ==> shop[i].id > 0
    requires forall n: nat, s: int :: find(n, s, limit).Ok? ==> find(n, s, limit) == Ok(ShopPage(shop, s, limit))
    requires forall s: int :: find(0, s, limit).Ok? || find(1, s, limit).Ok? || find(2, s, limit).Ok?
    ensures var w := AllShopifyProducts(find, limit, fuel);
      w.complete && w.error.None? && Concat(w.pages) == shop && |w.sinceIds| == RequestCount(|shop|, limit)
  {
    AllAbove(shop, 0);
    assert shop[0..] == shop;
    var page := (s: int, l: int) => ShopifyPage(find, s, l);
    assert forall s :: page(s, limit) == Ok(ShopPage(shop, s, limit)) by {
      forall s ensures page(s, limit) == Ok(ShopPage(shop, s, limit)) {
        var r := ShopifyPage(find, s, limit);
        assert r.Ok?;
      }
    }
    ShopServes(shop, page, limit, 0, 0);
    WalkServed(page, limit, 0, shop, fuel);
    PagesShape(page, limit, 0, fuel);
  }

  /** Two full pages and a short one: three requests, the second and third from the last id
      of the page before, and nothing more. */
  lemma FullFullShort(page: (int, int) -> Result<seq<ShopifyProduct>>, a: ShopifyProduct, b: ShopifyProduct,
                      c: ShopifyProduct, d: ShopifyProduct, e: ShopifyProduct, fuel: nat)
    requires fuel >= 3
    requires page(0, 2) == Ok([a, b]) && page(b.id, 2) == Ok([c, d]) && page(d.id, 2) == Ok([e])
    ensures var w := Pages(page, 2, 0, fuel);
      w.complete && w.sinceIds == [0, b.id, d.id] && w.pages == [[a, b], [c, d], [e]]
  {
    PagesShort(page, 2, d.id, fuel - 2, [e]);
    PagesFull(page, 2, b.id, fuel - 1, [c, d]);
    PagesFull(page, 2, 0, fuel, [a, b]);
  }
}

=== FILE: requests.dfy ===
/** The request `APIHelper.perform_request` sends: the URL and the query parameters, with the
    environment always added. Sending it is left to the caller. */
module Requests {
  import opened Wrappers
  import opened Domain
  import opened Endpoints

  /** A query-parameter value, as far as Python's truth test looks at it. */
  datatype PyValue = PyNone | PyBool(b: bool) | PyInt(i: int) | PyStr(s: string) | PyList(items: seq<PyValue>)

  /** Python truthiness: `None`, `False`, `0`, `''` and `[]` are falsy. */
  predicate Truthy(v: PyValue) {
    match v
    case PyNone => false
    case PyBool(b) => b
    case PyInt(i) => i != 0
    case PyStr(s) => s != []
    case PyList(items) => items != []
  }

  /** The environment a caller passes: an `Environment` member, or a plain string. */
  datatype EnvArg = EnvMember(e: Environment) | EnvText(text: string)

  /** `APIParams`, without the headers and body the model does not look at. */
  datatype ApiParams = ApiParams(
    environment: EnvArg,
    supplierCode: string,
    service: ServiceCode,
    version: ServiceVersion,
    func: Function,
    queryParams: Option<map<string, PyValue>>,
    productIdsOnly: bool)

  /** The request that goes out: the URL and the query parameters. */
  datatype Request = Request(url: string, query: map<string, PyValue>)

  /** The query-parameter map `params.query_params or {}`: absent counts as empty. */
  function GivenParams(p: ApiParams): map<string, PyValue> {
    if p.queryParams.Some? then p.queryParams.value else map[]
  }

  /** `APIHelper.gen_qry_params`: the given parameters with falsy values dropped. */
  function GenQryParams(p: ApiParams): (r: map<string, PyValue>)
    ensures forall k :: k in r <==> k in GivenParams(p) && Truthy(GivenParams(p)[k])
    ensures forall k | k in r :: r[k] == GivenParams(p)[k]
    ensures p.queryParams == None ==> r == map[]
  {
    var given := GivenParams(p);
    map k | k in given && Truthy(given[k]) :: given[k]
  }

  /** The text the `environment` parameter carries: an `Environment` member is a `str`, so
      both branches of the `isinstance` test send the same text. */
  function EnvString(env: EnvArg): string {
    match env
    case EnvMember(e) => EnvironmentValue(e)
    case EnvText(text) => text
  }

  /** The query parameters of `perform_request`: `gen_qry_params`, then `environment`. */
  function RequestParams(p: ApiParams): (r: map<string, PyValue>)
    ensures "environment" in r && r["environment"] == PyStr(EnvString(p.environment))
    ensures r.Keys == GenQryParams(p).Keys + {"environment"}
    ensures forall k | k in r && k != "environment" :: r[k] == GivenParams(p)[k]
  {
    GenQryParams(p)["environment" := PyStr(EnvString(p.environment))]
  }

  /** `APIHelper.gen_url`: `base`, the version value, the supplier and the segment, then the
      product id when there is a non-empty one. */
  function GenUrl(base: string, p: ApiParams, productId: Option<string>): (r: Result<string>)
    ensures r.Err? <==> GenSrvFunc(p.service, p.func, p.productIdsOnly).Err?
    ensures r.Err? ==> r == GenSrvFunc(p.service, p.func, p.productIdsOnly)
  {
    var segment :- GenSrvFunc(p.service, p.func, p.productIdsOnly);
    var url := base + VersionValue(p.version) + "/suppliers/" + p.supplierCode + "/" + segment;
    if productId.Some? && productId.value != [] then Ok(url + "/" + productId.value) else Ok(url)
  }

  /** `APIHelper.perform_request` up to the point where the request is sent. */
  function PerformRequest(base: string, p: ApiParams, productId: Option<string>): (r: Result<Request>)
    ensures r.Err? <==> GenUrl(base, p, productId).Err?
    ensures r.Ok? ==> r.value.url == GenUrl(base, p, productId).value
    ensures r.Ok? ==> r.value.query == RequestParams(p)
  {
    var url :- GenUrl(base, p, productId);
    Ok(Request(url, RequestParams(p)))
  }

  // ---------------------------------------------------------------- properties

  /** The URL without a product id splits back into its five parts. */
  lemma UrlParts(base: string, p: ApiParams)
    requires GenSrvFunc(p.service, p.func, p.productIdsOnly).Ok?
    ensures var url := GenUrl(base, p, None).value;
      var v := VersionValue(p.version);
      var tail := "/suppliers/" + p.supplierCode + "/";
      url[..|base|] == base
      && url[|base|..|base| + |v|] == v
      && url[|base| + |v|..|base| + |v| + |tail|] == tail
      && url[|base| + |v| + |tail|..] == GenSrvFunc(p.service, p.func, p.productIdsOnly).value
  {
    var v := VersionValue(p.version);
    var tail := "/suppliers/" + p.supplierCode + "/";
    var segment := GenSrvFunc(p.service, p.func, p.productIdsOnly).value;
    var url := GenUrl(base, p, None).value;
    assert url == base + v + tail + segment;
  }

  /** A non-empty product id is appended after one slash. */
  lemma UrlWithProductId(base: string, p: ApiParams, productId: string)
    requires productId != []
    ensures GenUrl(base, p, Some(productId)).Ok? == GenUrl(base, p, None).Ok?
    ensures GenUrl(base, p, None).Ok? ==>
      GenUrl(base, p, Some(productId)).value == GenUrl(base, p, None).value + "/" + productId
  {
  }

  /** An empty product id is the same as none. */
  lemma EmptyProductIdIgnored(base: string, p: ApiParams)
    ensures GenUrl(base, p, Some("")) == GenUrl(base, p, None)
  {
  }

  /** Dropping falsy parameters is idempotent: the kept ones are all truthy. */
  lemma QryParamsIdempotent(p: ApiParams)
    ensures GenQryParams(p.(queryParams := Some(GenQryParams(p)))) == GenQryParams(p)
  {
  }

  /** A caller's own `environment` parameter is always overwritten, and the member and its
      value send the same text. */
  lemma EnvironmentOverrides(p: ApiParams, e: Environment)
    requires p.environment == EnvMember(e)
    ensures RequestParams(p)["environment"] == PyStr(EnvironmentValue(e))
    ensures RequestParams(p) == RequestParams(p.(environment := EnvText(EnvironmentValue(e))))
  {
  }
}

=== FILE: services.dfy ===
/** `ServiceHelper`: the latest production version of each service a supplier offers, fetched
    once per supplier and cached for good. */
module Services {
  import opened Wrappers
  import opened Text
  import opened Domain

  // ---------------------------------------------------------------- the services document

  /** A key of a decoded JSON object: missing, present with `null`, or present with a value. */
  datatype Field<+T> = Absent | Null | Present(value: T)

  /** One element of a service's `versions` list. */
  datatype VersionEntry = VersionEntry(environment: Field<string>, version: Field<string>)

  /** What `resp.get(service)` finds: nothing truthy, or an object whose `versions` key may be
      missing or null. */
  datatype ServiceInfo = Falsy | Info(versions: Field<seq<VersionEntry>>)

  /** The services endpoint's answer: a status, its text, and, for status 200, the decoded body. */
  datatype ServicesResponse = ServicesResponse(status: int, text: string, body: map<string, ServiceInfo>)

  /** The per-supplier cache `suppliers_trans`: supplier code to (service name to version). */
  type Cache = map<string, map<string, string>>

  const Prod := "PROD"

  /** `v['environment'] == 'PROD'`; a null environment compares unequal. */
  predicate IsProd(v: VersionEntry) {
    v.environment == Present(Prod)
  }

  /** Every element has an `environment` key, and every production element a `version` key. */
  predicate KeysPresent(vs: seq<VersionEntry>) {
    forall i :: 0 <= i < |vs| ==> !vs[i].environment.Absent? && (IsProd(vs[i]) ==> !vs[i].version.Absent?)
  }

  /** A production element with a null `version` comes before any production version string,
      and the loop has not yet picked one when it starts from `ret`. */
  predicate NullsLead(vs: seq<VersionEntry>, ret: Option<string>) {
    forall i :: 0 <= i < |vs| && IsProd(vs[i]) && vs[i].version.Null? ==> ret.None? && ProdVersions(vs[..i]) == []
  }

  /** Exactly the lists the loop reads without an exception. */
  predicate Readable(vs: seq<VersionEntry>) {
    KeysPresent(vs) && NullsLead(vs, None)
  }

  /** The production version strings, in order. */
  function ProdVersions(vs: seq<VersionEntry>): (r: seq<string>)
    ensures |r| <= |vs|
  {
    if vs == [] then []
    else if IsProd(vs[0]) && vs[0].version.Present? then [vs[0].version.value] + ProdVersions(vs[1..])
    else ProdVersions(vs[1..])
  }

  // ---------------------------------------------------------------- _get_latest_from_versions

  /** `ret` after the loop has looked at `v` without raising: a production version replaces it
      when it is None or the version is greater as a string; a null version leaves a None
      `ret` None. */
  function After(v: VersionEntry, ret: Option<string>): Option<string> {
    if IsProd(v) && v.version.Present? && (ret.None? || StrLess(ret.value, v.version.value)) then Some(v.version.value)
    else ret
  }

  /** The loop of `_get_latest_from_versions`, from `ret` on: a missing key is a KeyError, and
      a null production version compared with a string `ret` is a TypeError. */
  function LatestLoop(vs: seq<VersionEntry>, ret: Option<string>): Result<Option<string>>
    decreases |vs|
  {
    if vs == [] then Ok(ret)
    else if vs[0].environment.Absent? then Err(KeyError("environment"))
    else if IsProd(vs[0]) && vs[0].version.Absent? then Err(KeyError("version"))
    else if IsProd(vs[0]) && vs[0].version.Null? && ret.Some? then Err(TypeError)
    else LatestLoop(vs[1..], After(vs[0], ret))
  }

  /** `ServiceHelper._get_latest_from_versions`. */
  function LatestFromVersions(vs: seq<VersionEntry>): Result<Option<string>> {
    LatestLoop(vs, None)
  }

  /** The production versions of `[v] + rest`. */
  lemma ProdVersionsCons(v: VersionEntry, rest: seq<VersionEntry>)
    ensures ProdVersions([v] + rest) ==
      (if IsProd(v) && v.version.Present? then [v.version.value] else []) + ProdVersions(rest)
  {
    assert ([v] + rest)[1..] == rest;
  }

  /** The key condition, one element at a time. */
  lemma KeysPresentStep(vs: seq<VersionEntry>)
    requires vs != []
    ensures KeysPresent(vs) <==>
      !vs[0].environment.Absent? && (IsProd(vs[0]) ==> !vs[0].version.Absent?) && KeysPresent(vs[1..])
  {
    if !KeysPresent(vs) && !vs[0].environment.Absent? && (IsProd(vs[0]) ==> !vs[0].version.Absent?) {
      var i :| 0 <= i < |vs| && !(!vs[i].environment.Absent? && (IsProd(vs[i]) ==> !vs[i].version.Absent?));
      assert vs[1..][i - 1] == vs[i];
    }
  }

  /** The null-version condition, one element at a time. */
  lemma NullsLeadStep(vs: seq<VersionEntry>, ret: Option<string>)
    requires vs != [] && !vs[0].environment.Absent? && (IsProd(vs[0]) ==> !vs[0].version.Absent?)
    ensures NullsLead(vs, ret) <==>
      (IsProd(vs[0]) && vs[0].version.Null? ==> ret.None?) && NullsLead(vs[1..], After(vs[0], ret))
  {
    var v, rest := vs[0], vs[1..];
    var here := if IsProd(v) && v.version.Present? then [v.version.value] else [];
    assert vs[..0] == [];
    forall i | 1 <= i <= |vs|
      ensures ProdVersions(vs[..i]) == here + ProdVersions(rest[..i - 1])
    {
      assert vs[..i] == [v] + rest[..i - 1];
      ProdVersionsCons(v, rest[..i - 1]);
    }
    forall i | 0 <= i < |rest| ensures rest[i] == vs[i + 1] { }
  }

  /** The loop raises exactly on a list it cannot read from `ret`. */
  lemma {:induction false} LatestLoopFails(vs: seq<VersionEntry>, ret: Option<string>)
    ensures LatestLoop(vs, ret).Ok? <==> KeysPresent(vs) && NullsLead(vs, ret)
    decreases |vs|
  {
    if vs != [] {
      KeysPresentStep(vs);
      if !vs[0].environment.Absent? && (IsProd(vs[0]) ==> !vs[0].version.Absent?) {
        NullsLeadStep(vs, ret);
        LatestLoopFails(vs[1..], After(vs[0], ret));
      }
    }
  }

  /** The loop's result is the running value or one of the production versions met, and no
      production version met, nor the running value, is greater. */
  lemma {:induction false} LatestLoopIsMax(vs: seq<VersionEntry>, ret: Option<string>)
    requires LatestLoop(vs, ret).Ok?
    ensures var r := LatestLoop(vs, ret).value;
      (r.None? <==> ret.None? && ProdVersions(vs) == [])
      && (r.Some? ==> r == ret || r.value in ProdVersions(vs))
      && (r.Some? && ret.Some? ==> !StrLess(r.value, ret.value))
      && (r.Some? ==> forall y | y in ProdVersions(vs) :: !StrLess(r.value, y))
    decreases |vs|
  {
    if vs == [] {
      if ret.Some? { StrLessIrreflexive(ret.value); }
    } else {
      var next := After(vs[0], ret);
      LatestLoopIsMax(vs[1..], next);
      var r := LatestLoop(vs, ret).value;
      assert vs == [vs[0]] + vs[1..];
      ProdVersionsCons(vs[0], vs[1..]);
      if IsProd(vs[0]) && vs[0].version.Present? {
        var version := vs[0].version.value;
        if r.Some? {
          StrLessIrreflexive(r.value);
          if ret.Some? && StrLess(ret.value, version) {
            if StrLess(r.value, ret.value) { StrLessTransitive(r.value, ret.value, version); }
          }
          if ret.Some? && !StrLess(ret.value, version) {
            if StrLess(r.value, version) {
              if ret.value == version { } else {
                StrLessTotal(ret.value, version);
                StrLessTransitive(r.value, version, ret.value);
              }
            }
          }
        }
      }
    }
  }

  /** `_get_latest_from_versions` on a readable list: None exactly when there is no production
      version; otherwise one of them, and none of them is greater as a string. */
  lemma LatestIsGreatestProd(vs: seq<VersionEntry>)
    requires Readable(vs)
    ensures LatestFromVersions(vs).Ok?
    ensures LatestFromVersions(vs).value.None? <==> ProdVersions(vs) == []
    ensures LatestFromVersions(vs).value.Some? ==>
      LatestFromVersions(vs).value.value in ProdVersions(vs)
      && forall y | y in ProdVersions(vs) :: !StrLess(LatestFromVersions(vs).value.value, y)
  {
    LatestLoopFails(vs, None);
    LatestLoopIsMax(vs, None);
  }

  /** Null values behave as in Python: a null environment is simply not `PROD`, a null
      production version before any version string is passed over, and one after a version
      string is a TypeError. */
  lemma NullsAsInPython()
    ensures LatestFromVersions([VersionEntry(Null, Absent)]) == Ok(None)
    ensures LatestFromVersions([VersionEntry(Present(Prod), Null), VersionEntry(Present(Prod), Present("1.0.0"))])
      == Ok(Some("1.0.0"))
    ensures LatestFromVersions([VersionEntry(Present(Prod), Present("1.0.0")), VersionEntry(Present(Prod), Null)])
      == Err(TypeError)
  {
    var a := [VersionEntry(Present(Prod), Null), VersionEntry(Present(Prod), Present("1.0.0"))];
    assert LatestLoop(a, None) == LatestLoop(a[1..], None);
    var b := [VersionEntry(Present(Prod), Present("1.0.0")), VersionEntry(Present(Prod), Null)];
    assert LatestLoop(b, None) == LatestLoop(b[1..], Some("1.0.0"));
  }

  /** The elements the loop looks at beyond their environment: those not labelled with some
      other (or a null) environment. */
  function DropOtherEnvironments(vs: seq<VersionEntry>): (r: seq<VersionEntry>)
    ensures |r| <= |vs|
  {
    if vs == [] then []
    else if !vs[0].environment.Absent? && !IsProd(vs[0]) then DropOtherEnvironments(vs[1..])
    else [vs[0]] + DropOtherEnvironments(vs[1..])
  }

  /** Elements labelled with an environment other than `PROD` never change the outcome. */
  lemma {:induction false} OtherEnvironmentsIgnored(vs: seq<VersionEntry>, ret: Option<string>)
    ensures LatestLoop(DropOtherEnvironments(vs), ret) == LatestLoop(vs, ret)
    decreases |vs|
  {
    if vs != [] {
      var rest := DropOtherEnvironments(vs[1..]);
      if !vs[0].environment.Absent? && !IsProd(vs[0]) {
        OtherEnvironmentsIgnored(vs[1..], ret);
      } else {
        assert ([vs[0]] + rest)[1..] == rest;
        OtherEnvironmentsIgnored(vs[1..], After(vs[0], ret));
      }
    }
  }

  /** The order is that of strings, not of version numbers: `1.10.0` sorts below `1.9.0`. */
  lemma StringOrderNotNumeric()
    ensures StrLess("1.10.0", "1.9.0")
    ensures LatestFromVersions([VersionEntry(Present(Prod), Present("1.10.0")), VersionEntry(Present(Prod), Present("1.9.0"))])
      == Ok(Some("1.9.0"))
  {
    assert StrLess("1.10.0"[2..], "1.9.0"[2..]);
    var vs := [VersionEntry(Present(Prod), Present("1.10.0")), VersionEntry(Present(Prod), Present("1.9.0"))];
    assert LatestLoop(vs, None) == LatestLoop(vs[1..], Some("1.10.0"));
    assert LatestLoop(vs[1..], Some("1.10.0")) == LatestLoop([], Some("1.9.0"));
  }

  // ---------------------------------------------------------------- _fill_out_latest_services

  /** What `resp.get(service)` finds in the body. */
  function InfoOf(body: map<string, ServiceInfo>, service: string): ServiceInfo {
    if service in body then body[service] else Falsy
  }

  /** The version a service contributes to the cache, when it contributes one: present, with
      a readable `versions` list whose latest production version is non-empty. */
  function Contribution(info: ServiceInfo): Option<string> {
    match info
    case Falsy => None
    case Info(versions) =>
      if !versions.Present? then None
      else match LatestFromVersions(versions.value)
        case Ok(Some(latest)) => if latest != [] then Some(latest) else None
        case _ => None
  }

  /** The loop over the service names, adding to `acc`; the first exception ends it, leaving
      what was added so far. A missing `versions` key is a KeyError, and iterating a null
      one a TypeError. */
  function FillLoop(body: map<string, ServiceInfo>, services: seq<string>, acc: map<string, string>)
    : (r: (map<string, string>, Result<()>))
    decreases |services|
  {
    if services == [] then (acc, Ok(()))
    else
      var service := services[0];
      match InfoOf(body, service)
      case Falsy => FillLoop(body, services[1..], acc)
      case Info(versions) =>
        if versions.Absent? then (acc, Err(KeyError("versions")))
        else if versions.Null? then (acc, Err(TypeError))
        else match LatestFromVersions(versions.value)
          case Err(e) => (acc, Err(e))
          case Ok(latest) =>
            if latest.Some? && latest.value != [] then FillLoop(body, services[1..], acc[service := latest.value])
            else FillLoop(body, services[1..], acc)
  }

  /** `ServiceHelper._fill_out_latest_services` with the HTTP answer given: a non-200 status
      raises before the cache is touched; otherwise the supplier's entry is set to `{}` and
      filled service by service, and stays as far as it got when an exception stops the loop. */
  function FillOut(cache: Cache, supplier: string, response: ServicesResponse): (r: (Cache, Result<()>))
    ensures response.status != 200 ==> r.0 == cache && r.1 == Err(HttpError(response.status, response.text))
    ensures response.status == 200 ==> supplier in r.0
    ensures forall other | other != supplier ::
      (other in r.0 <==> other in cache) && (other in cache ==> r.0[other] == cache[other])
  {
    if response.status != 200 then (cache, Err(HttpError(response.status, response.text)))
    else
      var (entry, outcome) := FillLoop(response.body, OrderedServices, map[]);
      (cache[supplier := entry], outcome)
  }

  predicate Distinct(services: seq<string>) {
    forall i, j :: 0 <= i < j < |services| ==> services[i] != services[j]
  }

  /** What the loop adds is what the services contribute: every key is a listed service
      (beyond those already in `acc`) whose contribution is that value; and when the loop
      finishes, every listed service with a contribution is there. */
  lemma {:induction false} FillLoopContents(body: map<string, ServiceInfo>, services: seq<string>, acc: map<string, string>)
    requires Distinct(services)
    ensures var (entry, outcome) := FillLoop(body, services, acc);
      (forall k | k in entry :: k in acc || (k in services && Contribution(InfoOf(body, k)) == Some(entry[k])))
      && (forall k | k in acc && k !in services :: k in entry && entry[k] == acc[k])
      && (outcome.Ok? ==> forall k | k in services && Contribution(InfoOf(body, k)).Some? :: k in entry)
    decreases |services|
  {
    if services != [] {
      var service := services[0];
      var rest := services[1..];
      assert forall k | k in rest :: k in services;
      assert Distinct(rest) by {
        forall i, j | 0 <= i < j < |rest| ensures rest[i] != rest[j] { assert rest[i] == services[i + 1]; }
      }
      assert service !in rest by {
        forall i | 0 <= i < |rest| ensures rest[i] != service { assert rest[i] == services[i + 1]; }
      }
      match InfoOf(body, service)
      case Falsy =>
        FillLoopContents(body, rest, acc);
        assert forall k | k in services && k != service :: k in rest;
      case Info(versions) =>
        if versions.Present? {
          match LatestFromVersions(versions.value)
          case Err(_) =>
          case Ok(latest) =>
            if latest.Some? && latest.value != [] {
              FillLoopContents(body, rest, acc[service := latest.value]);
              FillLoopAddsLater(body, rest, acc[service := latest.value], service);
            } else {
              FillLoopContents(body, rest, acc);
            }
            assert forall k | k in services && k != service :: k in rest;
        }
    }
  }

  /** A key the loop has already set is only ever overwritten by a later occurrence. */
  lemma {:induction false} FillLoopAddsLater(body: map<string, ServiceInfo>, services: seq<string>, acc: map<string, string>, k: string)
    requires k in acc && k !in services
    ensures k in FillLoop(body, services, acc).0 && FillLoop(body, services, acc).0[k] == acc[k]
    decreases |services|
  {
    if services != [] {
      var service := services[0];
      assert service != k;
      match InfoOf(body, service)
      case Falsy => FillLoopAddsLater(body, services[1..], acc, k);
      case Info(versions) =>
        if versions.Present? {
          match LatestFromVersions(versions.value)
          case Err(_) =>
          case Ok(latest) =>
            if latest.Some? && latest.value != [] {
              FillLoopAddsLater(body, services[1..], acc[service := latest.value], k);
            } else {
              FillLoopAddsLater(body, services[1..], acc, k);
            }
        }
    }
  }

  /** After a fill that got past the status check, the supplier's map holds only listed
      services, each with a non-empty value equal to that service's latest production
      version; after a complete fill it holds every service that has one. */
  lemma FillOutContents(cache: Cache, supplier: string, response: ServicesResponse)
    requires response.status == 200
    ensures var (c, outcome) := FillOut(cache, supplier, response);
      var entry := c[supplier];
      (forall k | k in entry :: k in OrderedServices && entry[k] != []
         && Contribution(InfoOf(response.body, k)) == Some(entry[k]))
      && (outcome.Ok? ==> forall k | k in OrderedServices ::
           (k in entry <==> Contribution(InfoOf(response.body, k)).Some?))
  {
    OrderedServicesAreTheListedMembers();
    FillLoopContents(response.body, OrderedServices, map[]);
  }

  /** A listed service whose object lacks `versions` stops the fill with a KeyError, and the
      supplier's partial entry stays cached. */
  lemma MissingVersionsLeavesPartialEntry(cache: Cache, supplier: string, response: ServicesResponse)
    requires response.status == 200
    requires InfoOf(response.body, "Product") == Info(Absent)
    ensures FillOut(cache, supplier, response).1 == Err(KeyError("versions"))
    ensures supplier in FillOut(cache, supplier, response).0
    ensures FillOut(cache, supplier, response).0[supplier] == map[]
  {
  }

  // ---------------------------------------------------------------- get_latest_code

  /** The outcome of one `get_latest_code` call: the cache afterwards, how many times the
      services endpoint was asked, and the code or the exception. */
  datatype Lookup = Lookup(cache: Cache, fetches: nat, code: Result<string>)

  /** `ServiceHelper.get_latest_code`, with the services endpoint given as `fetch`: a supplier
      not yet cached is filled first (and the fill's exception is raised); then the service is
      read, and a service the supplier's map lacks is a KeyError. */
  function GetLatestCode(cache: Cache, supplier: string, service: string, fetch: string -> ServicesResponse)
    : (r: Lookup)
    ensures supplier in cache ==> r.cache == cache && r.fetches == 0
    ensures supplier !in cache ==> r.fetches == 1
    ensures r.code.Ok? ==>
      supplier in r.cache && service in r.cache[supplier] && r.code.value == r.cache[supplier][service]
    ensures supplier in r.cache && service !in r.cache[supplier] ==> r.code.Err?
    ensures supplier in cache && service !in cache[supplier] ==> r.code == Err(KeyError(service))
    ensures supplier !in cache ==>
      var fill := FillOut(cache, supplier, fetch(supplier));
      r.cache == fill.0
      && (fill.1.Err? ==> r.code == Err(fill.1.error))
      && (fill.1.Ok? && service !in fill.0[supplier] ==> r.code == Err(KeyError(service)))
      && (fill.1.Ok? && service in fill.0[supplier] ==> r.code == Ok(fill.0[supplier][service]))
    ensures supplier in cache && service in cache[supplier] ==> r.code == Ok(cache[supplier][service])
  {
    if supplier in cache then
      Lookup(cache, 0, if service in cache[supplier] then Ok(cache[supplier][service]) else Err(KeyError(service)))
    else
      var (filled, outcome) := FillOut(cache, supplier, fetch(supplier));
      if outcome.Err? then Lookup(filled, 1, Err(outcome.error))
      else Lookup(filled, 1, if service in filled[supplier] then Ok(filled[supplier][service]) else Err(KeyError(service)))
  }

  /** The cache is never invalidated: once the services answer had status 200, every later
      call for that supplier reads the cache and asks nothing. */
  lemma FilledAtMostOnce(cache: Cache, supplier: string, s1: string, s2: string, fetch: string -> ServicesResponse)
    requires fetch(supplier).status == 200
    ensures var first := GetLatestCode(cache, supplier, s1, fetch);
      var second := GetLatestCode(first.cache, supplier, s2, fetch);
      first.fetches + second.fetches <= 1 && second.cache == first.cache
  {
  }

  /** A failed status leaves no entry, so the next call asks again. */
  lemma FailedFetchRetried(cache: Cache, supplier: string, service: string, fetch: string -> ServicesResponse)
    requires supplier !in cache && fetch(supplier).status != 200
    ensures GetLatestCode(cache, supplier, service, fetch).cache == cache
    ensures GetLatestCode(cache, supplier, service, fetch).code.Err?
  {
  }

  /** A code read after a fill is the service's latest production version, and every failure
      past the status check is a KeyError or, for a null in the answer, a TypeError: a service
      the fill skipped is a KeyError rather than an absent value. */
  lemma CodeIsLatestProd(supplier: string, service: string, fetch: string -> ServicesResponse)
    requires fetch(supplier).status == 200
    ensures var r := GetLatestCode(map[], supplier, service, fetch);
      (r.code.Ok? ==>
         service in OrderedServices && r.code.value != []
         && Contribution(InfoOf(fetch(supplier).body, service)) == Some(r.code.value))
      && (r.code.Err? ==> r.code.error.KeyError? || r.code.error.TypeError?)
  {
    FillOutContents(map[], supplier, fetch(supplier));
    var (filled, outcome) := FillOut(map[], supplier, fetch(supplier));
    if outcome.Err? {
      FillLoopErrorIsKey(fetch(supplier).body, OrderedServices, map[]);
    }
  }

  /** Every exception the loop raises is a KeyError or a TypeError. */
  lemma {:induction false} FillLoopErrorIsKey(body: map<string, ServiceInfo>, services: seq<string>, acc: map<string, string>)
    ensures FillLoop(body, services, acc).1.Err? ==>
      FillLoop(body, services, acc).1.error.KeyError? || FillLoop(body, services, acc).1.error.TypeError?
    decreases |services|
  {
    if services != [] {
      var service := services[0];
      match InfoOf(body, service)
      case Falsy => FillLoopErrorIsKey(body, services[1..], acc);
      case Info(versions) =>
        if versions.Present? {
          match LatestFromVersions(versions.value)
          case Err(_) => LatestLoopErrorIsKey(versions.value, None);
          case Ok(latest) =>
            if latest.Some? && latest.value != [] {
              FillLoopErrorIsKey(body, services[1..], acc[service := latest.value]);
            } else {
              FillLoopErrorIsKey(body, services[1..], acc);
            }
        }
    }
  }

  lemma {:induction false} LatestLoopErrorIsKey(vs: seq<VersionEntry>, ret: Option<string>)
    ensures LatestLoop(vs, ret).Err? ==> LatestLoop(vs, ret).error.KeyError? || LatestLoop(vs, ret).error.TypeError?
    decreases |vs|
  {
    if vs != [] {
      LatestLoopErrorIsKey(vs[1..], After(vs[0], ret));
    }
  }
}

=== FILE: text.dfy ===
/** The handful of Python `str` operations the client relies on, over `seq<char>`. */
module Text {

  // ---------------------------------------------------------------- lower()

  predicate IsUpper(c: char) { 'A' <= c <= 'Z' }

  /** `str.lower` on one character (ASCII letters only). */
  function LowerChar(c: char): (r: char)
    ensures !IsUpper(r)
    ensures IsUpper(c) ==> r as int == c as int + 32
    ensures !IsUpper(c) ==> r == c
  {
    if IsUpper(c) then (c as int + 32) as char else c
  }

  /** `str.lower`: every character lower-cased, in place. */
  function Lower(s: string): (r: string)
    ensures |r| == |s|
    ensures forall i :: 0 <= i < |s| ==> r[i] == LowerChar(s[i])
  {
    seq(|s|, i requires 0 <= i < |s| => LowerChar(s[i]))
  }

  predicate NoUpper(s: string) {
    forall i :: 0 <= i < |s| ==> !IsUpper(s[i])
  }

  /** A lower-cased string has no upper-case letter left, and lowering it again changes nothing. */
  lemma LowerIsLowerCase(s: string)
    ensures NoUpper(Lower(s))
    ensures Lower(Lower(s)) == Lower(s)
    ensures NoUpper(s) ==> Lower(s) == s
  {
  }

  /** Lowering commutes with concatenation. */
  lemma LowerAppend(a: string, b: string)
    ensures Lower(a + b) == Lower(a) + Lower(b)
  {
  }

  /** Lowering neither creates nor removes a character that is not an upper-case letter. */
  lemma LowerKeepsOthers(s: string, c: char)
    requires !IsUpper(c) && !('a' <= c <= 'z')
    ensures forall i :: 0 <= i < |s| ==> (Lower(s)[i] == c <==> s[i] == c)
  {
  }

  // ---------------------------------------------------------------- strip()

  /** `str.isspace` on the ASCII and Latin-1 range. */
  predicate IsSpace(c: char) {
    c == ' ' || ('\t' <= c <= '\r') || ('\U{1c}' <= c <= '\U{1f}') || c == '\U{85}' || c == '\U{a0}'
  }

  predicate AllSpace(s: string) {
    forall i :: 0 <= i < |s| ==> IsSpace(s[i])
  }

  /** Number of leading whitespace characters. */
  function LeadingSpace(s: string): (n: nat)
    ensures n <= |s|
    ensures AllSpace(s[..n])
    ensures n < |s| ==> !IsSpace(s[n])
  {
    if |s| == 0 || !IsSpace(s[0]) then 0
    else
      var n := 1 + LeadingSpace(s[1..]);
      assert s[..n] == [s[0]] + s[1..][..n - 1];
      n
  }

  /** Length of `s` once trailing whitespace is removed. */
  function TrailingCut(s: string): (n: nat)
    ensures n <= |s|
    ensures AllSpace(s[n..])
    ensures n > 0 ==> !IsSpace(s[n - 1])
  {
    if |s| == 0 || !IsSpace(s[|s| - 1]) then |s|
    else
      var n := TrailingCut(s[..|s| - 1]);
      assert s[n..] == s[..|s| - 1][n..] + [s[|s| - 1]];
      AllSpaceSnoc(s[..|s| - 1][n..], s[|s| - 1]);
      n
  }

  lemma AllSpaceSnoc(s: string, c: char)
    requires AllSpace(s) && IsSpace(c)
    ensures AllSpace(s + [c])
  {
    forall k | 0 <= k < |s + [c]| ensures IsSpace((s + [c])[k]) {
      if k < |s| { assert (s + [c])[k] == s[k]; }
    }
  }

  /** `str.strip()` with no argument: leading and trailing whitespace removed. */
  function Strip(s: string): (r: string)
    ensures |r| <= |s|
    ensures r == [] || (!IsSpace(r[0]) && !IsSpace(r[|r| - 1]))
  {
    var rest := s[LeadingSpace(s)..];
    rest[..TrailingCut(rest)]
  }

  /** Strip is the unique trim: any cut of `s` into whitespace, a core that neither starts nor
      ends with whitespace, and whitespace, has that core equal to `Strip(s)`. */
  lemma StripIsTheTrim(s: string, i: nat, j: nat)
    requires i <= j <= |s|
    requires AllSpace(s[..i]) && AllSpace(s[j..])
    requires i == j || (!IsSpace(s[i]) && !IsSpace(s[j - 1]))
    ensures Strip(s) == s[i..j]
  {
    var a := LeadingSpace(s);
    var rest := s[a..];
    var b := TrailingCut(rest);
    if i == j {
      assert forall k :: 0 <= k < |s| ==> IsSpace(s[k]) by {
        forall k | 0 <= k < |s| ensures IsSpace(s[k]) {
          if k < i { assert s[k] == s[..i][k]; } else { assert s[k] == s[j..][k - j]; }
        }
      }
    } else {
      assert a == i;
      assert b == j - i;
    }
  }

  /** Stripping twice is stripping once. */
  lemma StripIdempotent(s: string)
    ensures Strip(Strip(s)) == Strip(s)
  {
    var r := Strip(s);
    StripIsTheTrim(r, 0, |r|);
  }

  // ---------------------------------------------------------------- split()

  /** `str.split(sep)` for a one-character separator: the pieces between separators. */
  function Split(s: string, sep: char): (parts: seq<string>)
    ensures |parts| >= 1
    ensures forall k :: 0 <= k < |parts| ==> sep !in parts[k]
    ensures sep !in s <==> |parts| == 1
    decreases |s|
  {
    if sep !in s then [s]
    else
      var i := IndexOf(s, sep);
      [s[..i]] + Split(s[i + 1..], sep)
  }

  /** Index of the first occurrence of `c` in `s`. */
  function IndexOf(s: string, c: char): (i: nat)
    requires c in s
    ensures i < |s| && s[i] == c && c !in s[..i]
  {
    if s[0] == c then 0
    else
      assert c in s[1..] by { var k :| 0 <= k < |s| && s[k] == c; assert s[1..][k - 1] == c; }
      var i := 1 + IndexOf(s[1..], c);
      assert s[..i] == [s[0]] + s[1..][..i - 1];
      i
  }

  /** The first occurrence is the only index holding `c` with no `c` before it. */
  lemma FirstIndex(s: string, c: char, i: nat)
    requires i < |s| && s[i] == c && c !in s[..i]
    ensures c in s && IndexOf(s, c) == i
  {
    var j := IndexOf(s, c);
  }

  /** One step of `Split`, at the first separator `i`. */
  lemma SplitAt(s: string, sep: char, i: nat)
    requires i < |s| && s[i] == sep && sep !in s[..i]
    ensures Split(s, sep) == [s[..i]] + Split(s[i + 1..], sep)
  {
    FirstIndex(s, sep, i);
  }

  /** A separator-free `a` followed by the separator is the first piece; `b` is split on. */
  lemma SplitCons(a: string, b: string, sep: char)
    requires sep !in a
    ensures Split(a + [sep] + b, sep) == [a] + Split(b, sep)
  {
    var s := a + [sep] + b;
    assert s[..|a|] == a && s[|a|] == sep && s[|a| + 1..] == b;
    SplitAt(s, sep, |a|);
  }

  /** `sep.join(parts)`. */
  function Join(parts: seq<string>, sep: char): string
    decreases |parts|
  {
    if |parts| == 0 then ""
    else if |parts| == 1 then parts[0]
    else parts[0] + [sep] + Join(parts[1..], sep)
  }

  /** Joining a piece in front of at least one more puts one separator between them. */
  lemma JoinCons(head: string, tail: seq<string>, sep: char)
    requires |tail| >= 1
    ensures Join([head] + tail, sep) == head + [sep] + Join(tail, sep)
  {
    assert ([head] + tail)[1..] == tail;
  }

  /** A string is what lies before index `i`, the character there, and what follows. */
  lemma AroundIndex(s: string, i: nat)
    requires i < |s|
    ensures s == s[..i] + [s[i]] + s[i + 1..]
  {
  }

  /** Splitting and re-joining gives back the original string. */
  lemma {:induction false} JoinSplit(s: string, sep: char)
    ensures Join(Split(s, sep), sep) == s
    decreases |s|
  {
    if sep in s {
      var i := IndexOf(s, sep);
      var rest := s[i + 1..];
      JoinCons(s[..i], Split(rest, sep), sep);
      JoinSplit(rest, sep);
      AroundIndex(s, i);
    }
  }

  /** Joining separator-free pieces and splitting again gives back the pieces. */
  lemma {:induction false} SplitJoin(parts: seq<string>, sep: char)
    requires |parts| >= 1
    requires forall k :: 0 <= k < |parts| ==> sep !in parts[k]
    ensures Split(Join(parts, sep), sep) == parts
    decreases |parts|
  {
    if |parts| > 1 {
      var tail := parts[1..];
      assert parts == [parts[0]] + tail;
      JoinCons(parts[0], tail, sep);
      SplitCons(parts[0], Join(tail, sep), sep);
      SplitJoin(tail, sep);
    }
  }

  // ---------------------------------------------------------------- replace()

  /** `pat` occurs in `s` starting at index `i`. */
  predicate OccursAt(s: string, pat: string, i: nat) {
    i + |pat| <= |s| && s[i..i + |pat|] == pat
  }

  /** `s.startswith(pat)`, compared one character at a time. */
  predicate StartsWith(s: string, pat: string)
    decreases |pat|
  {
    |pat| == 0 || (|s| > 0 && s[0] == pat[0] && StartsWith(s[1..], pat[1..]))
  }

  lemma {:induction false} StartsWithIsPrefix(s: string, pat: string)
    ensures StartsWith(s, pat) <==> OccursAt(s, pat, 0)
    decreases |pat|
  {
    if |pat| > 0 && |s| > 0 {
      StartsWithIsPrefix(s[1..], pat[1..]);
      if OccursAt(s, pat, 0) {
        assert s[1..][..|pat| - 1] == pat[1..];
      }
    }
  }

  predicate HasInfix(s: string, pat: string) {
    exists i: nat | i <= |s| :: OccursAt(s, pat, i)
  }

  /** `str.replace(pat, rep)`: every non-overlapping occurrence of `pat`, scanning from the
      left, replaced by `rep`; an empty `pat` inserts `rep` around every character. */
  function ReplaceAll(s: string, pat: string, rep: string): string
    decreases |s|
  {
    if pat == [] then
      (if s == [] then rep else rep + [s[0]] + ReplaceAll(s[1..], pat, rep))
    else if |s| < |pat| then s
    else if StartsWith(s, pat) then rep + ReplaceAll(s[|pat|..], pat, rep)
    else [s[0]] + ReplaceAll(s[1..], pat, rep)
  }

  /** A string in which a non-empty pattern does not occur is left unchanged by replacing it. */
  lemma {:induction false} ReplaceAbsent(s: string, pat: string, rep: string)
    requires pat != [] && !HasInfix(s, pat)
    ensures ReplaceAll(s, pat, rep) == s
    decreases |s|
  {
    if |s| >= |pat| {
      StartsWithIsPrefix(s, pat);
      assert !HasInfix(s[1..], pat) by {
        forall i: nat | i <= |s[1..]| && OccursAt(s[1..], pat, i) ensures false {
          assert s[1..][i..i + |pat|] == s[i + 1..i + 1 + |pat|];
          assert OccursAt(s, pat, i + 1);
        }
      }
      ReplaceAbsent(s[1..], pat, rep);
    }
  }

  /** A pattern cannot occur in a string that lacks one of its characters. */
  lemma MissingCharNoInfix(s: string, pat: string, c: char)
    requires c in pat && c !in s
    ensures !HasInfix(s, pat)
  {
  }

  /** A pattern cannot occur where its first character never appears early enough. */
  lemma HeadAbsentNoInfix(s: string, pat: string)
    requires pat != []
    requires |pat| <= |s| ==> pat[0] !in s[..|s| - |pat| + 1]
    ensures !HasInfix(s, pat)
  {
  }

  /** A string that is exactly the pattern becomes exactly the replacement. */
  lemma ReplaceWhole(pat: string, rep: string)
    requires pat != []
    ensures ReplaceAll(pat, pat, rep) == rep
  {
    StartsWithIsPrefix(pat, pat);
    assert pat[|pat|..] == [];
    assert ReplaceAll([], pat, rep) == [];
  }

  // ---------------------------------------------------------------- comparison

  /** Python's `a < b` on `str`: lexicographic by code point, a proper prefix is smaller. */
  predicate StrLess(a: string, b: string)
    decreases |a|
  {
    if |a| == 0 then |b| > 0
    else if |b| == 0 then false
    else if a[0] != b[0] then a[0] < b[0]
    else StrLess(a[1..], b[1..])
  }

  lemma {:induction false} StrLessIrreflexive(a: string)
    ensures !StrLess(a, a)
    decreases |a|
  {
    if |a| > 0 { StrLessIrreflexive(a[1..]); }
  }

  lemma {:induction false} StrLessTransitive(a: string, b: string, c: string)
    requires StrLess(a, b) && StrLess(b, c)
    ensures StrLess(a, c)
    decreases |a|
  {
    if |a| > 0 && |b| > 0 && |c| > 0 && a[0] == b[0] && b[0] == c[0] {
      StrLessTransitive(a[1..], b[1..], c[1..]);
    }
  }

  /** Any two distinct strings are ordered one way or the other. */
  lemma {:induction false} StrLessTotal(a: string, b: string)
    requires a != b
    ensures StrLess(a, b) || StrLess(b, a)
    decreases |a|
  {
    if |a| > 0 && |b| > 0 && a[0] == b[0] {
      assert a == [a[0]] + a[1..] && b == [b[0]] + b[1..];
      StrLessTotal(a[1..], b[1..]);
    }
  }
}

=== FILE: wrappers.dfy ===
/** Failure-carrying results used throughout the model in place of Python exceptions. */
module Wrappers {

  /** `None` stands for Python's `None`; `Some(v)` for a present value. */
  datatype Option<+T> = None | Some(value: T)

  /** The exception kinds the modelled code can raise, each with the text it carries. */
  datatype Error =
    | ValueError(message: string)          // bad service/function pair, unknown or missing version
    | KeyError(key: string)                // dict lookup of an absent key
    | IndexError                           // `locations[0]` on an empty list
    | TypeError                            // an operation applied to `None`
    | RateLimited(supplier: string)        // HTTP 429 from the supplier API
    | HttpError(status: int, body: string) // any other non-200 status
    | ParseError                           // the response schema rejected the body
    | RemoteError(what: string)            // an exception raised inside an external collaborator
    | RetryError(last: Error)              // every attempt of a retried call raised; the last one

  /** A computation that either returned a value or raised an exception. */
  datatype Result<+R> = Ok(value: R) | Err(error: Error) {
    predicate IsFailure() { Err? }

    function PropagateFailure<U>(): Result<U>
      requires Err?
    {
      Err(error)
    }

    function Extract(): R
      requires Ok?
    {
      value
    }
  }
}
